=== FILE: README.md ===
# Istio route compiler, modelled in Dafny

This project models the HTTP route compiler of Istio's Pilot
(`pilot/pkg/networking/core/v1alpha3/route/route.go`). The compiler takes
the VirtualServices that apply to a sidecar listener port and the service
registry, and builds Envoy virtual hosts with their ordered route lists.

A VirtualService holds HTTP rules. Each rule has:
- match blocks;
- a redirect or weighted destinations;
- header operations;
- mirror, fault injection, CORS, retry and timeout settings.

Every function of the compiler is modelled as a pure Dafny function or
method over immutable datatypes. The modules follow the structure of the
source:

| module | what it models |
|---|---|
| `Wrappers`, `Strings`, `Seqs`, `Sorting` | helpers: `Option`/`Result`; Go string helpers (`strings.Split`/`Join`/`HasSuffix`, `strconv.Itoa`/`Atoi`); generic sequence facts; a stable sort by name key, standing in for `sort.Stable` |
| `ServiceModel` | registry types from packages outside this model: services and ports; host-name wildcard matching; label supersets; the cluster-name encoding `direction\|port\|subset\|host` with its parser |
| `Networking`, `Envoy`, `Context` | the input API (VirtualService, DestinationRule); the output route records; the proxy, push context and feature flags |
| `MatchTranslate` | `translateRouteMatch`, `translateHeaderMatch`, `translateQueryParamMatch`, and the catch-all predicates |
| `HeaderOps` | `SortHeaderValueOption.Less`, `translateAppendHeaders`, `translateHeadersOperations` |
| `Policies` | `mirrorPercent`, `translateFault`, `translateCORSPolicy` |
| `HashPolicies` | `consistentHashToHashPolicy`, `getHashPolicy`, `getHashPolicyByService`, `portLevelSettingsConsistentHash` |
| `Translate` | `GetDestinationCluster`, `sourceMatchHTTP`, `translateRoute` (guards, redirect, weighted clusters, single-cluster collapse), `getRouteOperation`, the default inbound and outbound routes |
| `Expansion` | `BuildHTTPRoutesForVirtualService`: its rule loop with the early exits, over any per-block translation |
| `Combine` | `CombineVHostRoutes` |
| `VirtualHosts` | `separateVSHostsAndServices`, `buildSidecarVirtualHostsForVirtualService`, `BuildSidecarVirtualHostsFromConfigAndRegistry` |

The service registry is a Go map, so it is modelled as a Dafny map plus a
sequence `order`, the order in which Go happens to iterate it.
- `Enumerates(order, registry)` says `order` lists every key exactly once.
- `WellKeyed(registry)` says every service is stored under its own host name.

The theorems about the whole listener assume these two predicates. The
computation itself does not.

Three helpers come from packages that are not part of this model. Each is
given the definition stated in its doc comment:
- the subset-key encoding `BuildSubsetKey`, `ParseSubsetKey` and `IsValidSubsetKey`;
- `host.Name.Matches`;
- `labels.Collection.IsSupersetOf`.

## Model

| member | source | states |
|---|---|---|
| ServiceModel.ParseSubsetKey | pilot/pkg/networking/core/v1alpha3/route/route.go:817-820 | Parsing a valid key yields its fourth piece as host; fewer than four pieces give the zero key |
| ServiceModel.ParseBuildRoundTrip | pilot/pkg/networking/core/v1alpha3/route/route.go:817-820 | A cluster name built from a key whose direction, subset and host contain no `\|` is valid and parses back to the same key |
| ServiceModel.BuildSubsetKeyInjective | pilot/pkg/networking/core/v1alpha3/route/route.go:254 | Two such keys never produce the same cluster name |
| Translate.GetDestinationCluster | pilot/pkg/networking/core/v1alpha3/route/route.go:240-255 | Read back, the cluster name is a valid outbound key naming the destination's subset, host and chosen port |
| Translate.DestinationClusterPortChoice | pilot/pkg/networking/core/v1alpha3/route/route.go:240-255 | The port in the cluster name is the explicit port if set, else the only port of a one-port service, else the listener port |
| Translate.AnyGateway | pilot/pkg/networking/core/v1alpha3/route/route.go:319-324 | True exactly when some listed gateway is one of the gateways being built |
| Translate.SourceMatchHTTP | pilot/pkg/networking/core/v1alpha3/route/route.go:313-330 | No block always passes. A block naming gateways passes iff one of them is being built. Otherwise the proxy labels must include the source labels and the source namespace must be empty or the proxy's |
| Translate.GatewaysOverrideSourceLabels | pilot/pkg/networking/core/v1alpha3/route/route.go:319-327 | Once a block names gateways, changing the proxy's labels or namespace changes nothing |
| Translate.PortMatches | pilot/pkg/networking/core/v1alpha3/route/route.go:347-350 | A block without a port, or with port 0, applies on every listener port; a block's nonzero port must equal a 32-bit listener port, and a wider listener port is accepted when it agrees with the block's port modulo 2^32 |
| Translate.RouteName | pilot/pkg/networking/core/v1alpha3/route/route.go:357-362 | The route name starts with the rule's name and ends with `.` plus the block's name when that is non-empty, and has no other characters: its length is the rule name's, plus one and the block name's when that is non-empty |
| Translate.RedirectCodeOf | pilot/pkg/networking/core/v1alpha3/route/route.go:380-394 | Only the codes 0, 301, 302, 303, 307 and 308 have an Envoy redirect code |
| Translate.RedirectCodeRoundTrip | pilot/pkg/networking/core/v1alpha3/route/route.go:380-394 | Each Envoy code is reached from its own HTTP status, each supported non-zero status is recovered from its code, and 0 means 301 |
| Translate.TranslateRedirect | pilot/pkg/networking/core/v1alpha3/route/route.go:371-396 | A redirect carries the rule's authority, URI and mapped code; an unsupported code leaves the route without an action |
| Translate.WeightOf | pilot/pkg/networking/core/v1alpha3/route/route.go:436-445 | A surviving destination (nonzero weight, or the rule's only destination) is never sent with weight 0 |
| Translate.WeightedDestinations | pilot/pkg/networking/core/v1alpha3/route/route.go:434-471 | At most one cluster entry per destination, none of weight 0, and no more hash policies than entries |
| Translate.HashPolicyOf | pilot/pkg/networking/core/v1alpha3/route/route.go:463-470 | A destination contributes one hash policy exactly when the DestinationRule resolution gives one for its host in the host's config namespace, and that policy is the one resolved |
| Translate.WeightedFollowsSurvivors | pilot/pkg/networking/core/v1alpha3/route/route.go:434-471 | The cluster entries are exactly the surviving destinations' entries, in declared order |
| Translate.HashPoliciesFollowSurvivors | pilot/pkg/networking/core/v1alpha3/route/route.go:434-471 | The hash policies are exactly those of the surviving destinations that have one, in declared order |
| Translate.WeightSumPreserved | pilot/pkg/networking/core/v1alpha3/route/route.go:436-445 | Among several destinations, dropping zero weights leaves the total weight unchanged |
| Translate.WeightedCountsNonZero | pilot/pkg/networking/core/v1alpha3/route/route.go:436-445 | Among several destinations, the number of cluster entries is the number of nonzero weights |
| Translate.SingleDestinationAlwaysRouted | pilot/pkg/networking/core/v1alpha3/route/route.go:436-445 | A rule's only destination always yields one entry, with weight 100 when its weight is 0 |
| Translate.MirrorPolicies | pilot/pkg/networking/core/v1alpha3/route/route.go:423-431 | There is one mirror policy exactly when a mirror is set and its percentage is enabled, and never more than one. It mirrors at that percentage, without trace sampling, to the outbound cluster of the mirror's subset, host and port (its own port, else a single-port service's, else the listener's) |
| Translate.Forwarded | pilot/pkg/networking/core/v1alpha3/route/route.go:397-487 | The forwarding branch sets a forward action and leaves the route's name, match, decorator and fault untouched |
| Translate.TranslateRoute | pilot/pkg/networking/core/v1alpha3/route/route.go:333-497 | No route iff the source or port guard rejects the block. Otherwise: named after rule and block; matching the translated block; redirecting iff the rule redirects; a fault entry iff the rule sets a fault; the decorator describes the route itself |
| Translate.Decorated | pilot/pkg/networking/core/v1alpha3/route/route.go:489-494 | The decorator is computed from the finished route, the fault entry is set, and nothing else changes |
| Translate.ForwardingRoute | pilot/pkg/networking/core/v1alpha3/route/route.go:397-487 | Timeouts are the rule's or the default. Retry is converted from the rule. CORS, rewrite and mirror come from the rule. Hash policies are the weighted loop's. One entry collapses to a single cluster with its header lists appended after the rule's; otherwise a weighted list with only the rule's header lists |
| Translate.ForwardingRouteHashPolicies | pilot/pkg/networking/core/v1alpha3/route/route.go:434-471 | A forwarding route's hash policies are those of the rule's surviving destinations that have one, in declared order |
| Translate.ForwardOperationNamesDestination | pilot/pkg/networking/core/v1alpha3/route/route.go:799-823 | A route with exactly one surviving destination is decorated with that destination's host, its chosen port and the path label. This includes a split such as 100/0, whose zero-weight entries are dropped before the single cluster collapses |
| Translate.GetRouteOperation | pilot/pkg/networking/core/v1alpha3/route/route.go:799-823 | The decorator always ends in the path label of the route's match |
| Translate.OperationReadsMatchAndAction | pilot/pkg/networking/core/v1alpha3/route/route.go:799-823 | The decorator depends only on the route's match and action |
| Translate.OperationWithoutSingleCluster | pilot/pkg/networking/core/v1alpha3/route/route.go:799-823 | Without a single cluster (redirect, no action, or a weighted split) the decorator is the VirtualService name, the listener port and the path label |
| Translate.BuildDefaultHTTPInboundRoute | pilot/pkg/networking/core/v1alpha3/route/route.go:826-845 | The inbound default is a catch-all route named `default` to the given cluster, with no retry and zero timeouts |
| Translate.BuildDefaultHTTPOutboundRoute | pilot/pkg/networking/core/v1alpha3/route/route.go:848-855 | The outbound default is the inbound default with the default retry policy added |
| Translate.TraceOperation | pilot/pkg/networking/core/v1alpha3/route/route.go:1111-1114 | The trace operation is the host, `:`, the decimal port and the path label of the catch-all match a block-less route gets |
| Translate.DefaultRouteOperationAgrees | pilot/pkg/networking/core/v1alpha3/route/route.go:1111-1114 | A default outbound route's trace operation agrees with the decorator `getRouteOperation` would give it |
| MatchTranslate.IsCatchAllHeaderMatch | pilot/pkg/networking/core/v1alpha3/route/route.go:686-699 | A header match is catch-all exactly when it is nil or the regex `*`; an exact or prefix match never is, whatever its pattern |
| MatchTranslate.TranslateHeaderMatch | pilot/pkg/networking/core/v1alpha3/route/route.go:686-729 | A nil or `*`-regex match becomes a present-match; any other keeps its kind and pattern; the name is kept and the match is not inverted |
| MatchTranslate.TranslateQueryParamMatch | pilot/pkg/networking/core/v1alpha3/route/route.go:660-682 | Exact and regex query matches are kept; a prefix match leaves the matcher without a pattern |
| MatchTranslate.TranslateRouteMatch | pilot/pkg/networking/core/v1alpha3/route/route.go:595-657 | A nil block gives the default match. Otherwise: path from the URI; case sensitivity the negation of ignore-case; declared header and without-header matchers sorted by name, as a permutation; the method, authority and scheme matchers after them, unsorted; query matchers in order |
| MatchTranslate.IsCatchAllMatch | pilot/pkg/networking/core/v1alpha3/route/route.go:1058-1071 | A block is catch-all iff its URI is the prefix `/` or the regex `*` and it has no header or query matches |
| MatchTranslate.CatchAllMatch | pilot/pkg/networking/core/v1alpha3/route/route.go:1048-1055 | The result is the first catch-all block; none iff no block is catch-all |
| MatchTranslate.IsCatchAllRouteMatch | pilot/pkg/networking/core/v1alpha3/route/route.go:1098-1109 | A compiled route is catch-all iff its path is the prefix `/` or the regex `*` and it has no header or query matchers |
| MatchTranslate.DefaultMatchIsCatchAll | pilot/pkg/networking/core/v1alpha3/route/route.go:596-598 | The match built from a nil block is a catch-all route match |
| MatchTranslate.TranslatedMatchCatchAllIff | pilot/pkg/networking/core/v1alpha3/route/route.go:595-657 | A translated block is a catch-all route iff its URI is absent, `/` or `*`, and it sets no header, without-header, query, method, authority or scheme match |
| MatchTranslate.CatchAllMatchCompilesToCatchAllRoute | pilot/pkg/networking/core/v1alpha3/route/route.go:1058-1109 | A catch-all block compiles to a catch-all route iff it has no without-header, method, authority or scheme match, so the two predicates can disagree |
| MatchTranslate.MissingUriIsNotCatchAll | pilot/pkg/networking/core/v1alpha3/route/route.go:1059-1070 | A block without a URI is never catch-all, though its route matches every path |
| HeaderOps.HeaderOptionLess | pilot/pkg/networking/core/v1alpha3/route/route.go:535-542 | The Less method is exactly the key order: by header name, headerless entries last |
| HeaderOps.TranslateAppendHeaders | pilot/pkg/networking/core/v1alpha3/route/route.go:550-566 | The options, each with a header and the given append flag, sorted by name as a permutation of the entries |
| HeaderOps.TranslateAppendHeadersOrderIndependent | pilot/pkg/networking/core/v1alpha3/route/route.go:550-566 | Two iteration orders of the same header map give the same sorted list |
| HeaderOps.TranslateHeadersOperations | pilot/pkg/networking/core/v1alpha3/route/route.go:576-592 | Add lists are the sorted set entries (append=false) followed by the sorted add entries (append=true); remove lists keep their order |
| Policies.Uint32OfInt32OfUint32 | pilot/pkg/networking/core/v1alpha3/route/route.go:516-518 | Casting an unsigned percent to signed and back is the identity |
| Policies.MirrorPercent | pilot/pkg/networking/core/v1alpha3/route/route.go:503-527 | The percentage field wins over the legacy integer field; the chosen one mirrors iff positive; with neither set everything is mirrored |
| Policies.MirrorPercentageOverridesLegacy | pilot/pkg/networking/core/v1alpha3/route/route.go:505-512 | With the percentage field set, the legacy field has no influence |
| Policies.TranslateDelay | pilot/pkg/networking/core/v1alpha3/route/route.go:882-898 | Only a fixed delay survives; its percentage falls back to the legacy integer |
| Policies.TranslateAbort | pilot/pkg/networking/core/v1alpha3/route/route.go:900-914 | Only an HTTP-status abort survives; its percentage comes only from the percentage field |
| Policies.TranslateFault | pilot/pkg/networking/core/v1alpha3/route/route.go:876-921 | No fault unless a delay or an abort survives; each part is present iff supported |
| Policies.ConvertToExactEnvoyMatch | pilot/pkg/networking/core/v1alpha3/route/route.go:731-739 | One exact matcher per legacy origin, in order |
| Policies.ConvertToEnvoyMatch | pilot/pkg/networking/core/v1alpha3/route/route.go:741-763 | Each origin match keeps its kind and pattern, in order |
| Policies.TranslateCORSPolicy | pilot/pkg/networking/core/v1alpha3/route/route.go:766-796 | Origins come from the newer list when set, else the legacy list. The filter is enabled at 100%. Header and method lists are comma-joined. The max age is present iff set |
| Policies.CorsPolicyReadsBack | pilot/pkg/networking/core/v1alpha3/route/route.go:789-793 | Comma-free header and method lists split back out of the joined strings, and the max age parses back to its seconds |
| HashPolicies.ConsistentHashToHashPolicy | pilot/pkg/networking/core/v1alpha3/route/route.go:938-981 | No policy iff there is no hash key; otherwise the policy hashes on exactly that header, cookie, source IP or query parameter |
| HashPolicies.FirstPortSetting | pilot/pkg/networking/core/v1alpha3/route/route.go:925-933 | The index of the first port-level setting for the port, none iff no setting names it |
| HashPolicies.PortLevelSettingsConsistentHash | pilot/pkg/networking/core/v1alpha3/route/route.go:923-936 | A destination without a port gets none; otherwise the first setting for its port decides |
| HashPolicies.FirstSubset | pilot/pkg/networking/core/v1alpha3/route/route.go:1026-1034 | The index of the first subset with the destination's subset name, none iff absent |
| HashPolicies.GetHashPolicy | pilot/pkg/networking/core/v1alpha3/route/route.go:1004-1045 | No push context or no DestinationRule gives none; with a DestinationRule, the result is the translation of the first set tier among subset-port, subset, host-port and host (both directions: whatever is returned comes from such a tier, and the first set tier is what is returned), and none when no tier is set |
| HashPolicies.SubsetTiersOverrideHostTiers | pilot/pkg/networking/core/v1alpha3/route/route.go:1036-1043 | Once a subset tier is set, host-level settings do not matter |
| HashPolicies.PortlessDestinationIgnoresPortLevel | pilot/pkg/networking/core/v1alpha3/route/route.go:925-935 | A destination without a port never uses port-level settings |
| HashPolicies.OtherPortSettingIgnored | pilot/pkg/networking/core/v1alpha3/route/route.go:925-933 | A setting for another port, placed first, changes nothing |
| HashPolicies.EmptyPortLevelFallsBackToHost | pilot/pkg/networking/core/v1alpha3/route/route.go:1036-1043 | With the three higher tiers unset, the host-level hash applies |
| HashPolicies.GetHashPolicyByService | pilot/pkg/networking/core/v1alpha3/route/route.go:983-1002 | The first port-level entry for the port replaces the host-level hash, even when it sets none |
| HashPolicies.PortEntryWithoutHashHidesHostHashOnlyByService | pilot/pkg/networking/core/v1alpha3/route/route.go:983-1043 | A port entry without a hash hides the host hash for a service without routes, but not for a routed destination |
| Expansion.AcceptedBlocks | pilot/pkg/networking/core/v1alpha3/route/route.go:297-301 | The positions of the blocks the guards accept, increasing: every accepted block's position and only those |
| Expansion.TranslateMatches | pilot/pkg/networking/core/v1alpha3/route/route.go:297-301 | At most one route per block, each produced by translating one of the blocks |
| Expansion.TranslateMatchesFollowsAccepted | pilot/pkg/networking/core/v1alpha3/route/route.go:297-301 | The i-th route is the translation under the i-th accepted block, so every accepted block yields its route, in block order, and nothing else is produced |
| Expansion.ExpandRule | pilot/pkg/networking/core/v1alpha3/route/route.go:280-301 | A rule without blocks stops and yields its block-less route when the guards accept it, else nothing. A rule with blocks stops exactly when a catch-all block exists and its route is accepted, and then yields only that route; otherwise it yields the block-by-block routes |
| Expansion.ExpandRules | pilot/pkg/networking/core/v1alpha3/route/route.go:280-303 | No rules yield no routes, and a first rule that stops is the only contributor |
| Expansion.ExpandRulesSound | pilot/pkg/networking/core/v1alpha3/route/route.go:280-303 | Every route of the list is one that some rule contributes |
| Expansion.TranslateMatchesLoop | pilot/pkg/networking/core/v1alpha3/route/route.go:297-301 | The block loop yields exactly the per-block routes in order |
| Expansion.ExpandRuleStep | pilot/pkg/networking/core/v1alpha3/route/route.go:281-301 | One iteration yields what the rule contributes and whether the loop breaks |
| Expansion.ExpandRulesFrom | pilot/pkg/networking/core/v1alpha3/route/route.go:280-303 | The routes from a rule on are its own routes, then, unless it stops, the later rules' routes |
| Expansion.ExpandRulesLoop | pilot/pkg/networking/core/v1alpha3/route/route.go:280-303 | The rule loop with its breaks computes exactly the expansion |
| Expansion.BuildHTTPRoutesForVirtualService | pilot/pkg/networking/core/v1alpha3/route/route.go:265-309 | The routes of the rules in order, and an error exactly when there are none |
| Expansion.NoMatchRuleEndsExpansion | pilot/pkg/networking/core/v1alpha3/route/route.go:281-286 | A rule without blocks ends the expansion, even when it yields no route |
| Expansion.StopEndsExpansion | pilot/pkg/networking/core/v1alpha3/route/route.go:281-296 | Rules after any stopping rule contribute nothing |
| Expansion.CatchAllRuleYieldsOneRoute | pilot/pkg/networking/core/v1alpha3/route/route.go:288-296 | An accepted catch-all block yields exactly its route and stops the whole loop |
| Expansion.FailedCatchAllContributesNothing | pilot/pkg/networking/core/v1alpha3/route/route.go:297-301 | When the catch-all block is rejected, expansion goes on block by block and every route comes from another block |
| Combine.SelectionsPartition | pilot/pkg/networking/core/v1alpha3/route/route.go:1085-1093 | The specific and catch-all selections split the routes as a multiset, each holding only its own kind |
| Combine.SpecificThenCatchAll | pilot/pkg/networking/core/v1alpha3/route/route.go:1078-1095 | Specific routes then catch-alls form a permutation in which no catch-all precedes a specific route |
| Combine.SortOntoLists | pilot/pkg/networking/core/v1alpha3/route/route.go:1086-1092 | The inner loop extends both lists with one route set's routes of each kind, in order |
| Combine.CombineVHostRoutes | pilot/pkg/networking/core/v1alpha3/route/route.go:1078-1095 | All specific routes in input order, then all catch-all routes in input order. The result is a permutation of the input's total length, and no catch-all precedes a specific route |
| VirtualHosts.ServicesMatching | pilot/pkg/networking/core/v1alpha3/route/route.go:172-178 | The registry services whose host matches the wildcard; empty iff none does |
| VirtualHosts.PlainPass | pilot/pkg/networking/core/v1alpha3/route/route.go:153-165 | Plain hosts found in the registry become services; the others stay hosts; wildcards are skipped |
| VirtualHosts.WildcardPass | pilot/pkg/networking/core/v1alpha3/route/route.go:168-182 | A wildcard host yields every matching service, or stays a host when nothing matches |
| VirtualHosts.SeparateVSHostsAndServices | pilot/pkg/networking/core/v1alpha3/route/route.go:144-184 | Every separated service is a registry entry |
| VirtualHosts.SeparateMembership | pilot/pkg/networking/core/v1alpha3/route/route.go:144-184 | A service is listed iff some host names it directly or matches it by wildcard. A host stays a host iff it is an unknown plain name or a wildcard matching nothing |
| VirtualHosts.SeparateIgnoresHostOrder | pilot/pkg/networking/core/v1alpha3/route/route.go:144-184 | The sets of hosts and services do not depend on the order of the VirtualService's hosts |
| VirtualHosts.AllPorts | pilot/pkg/networking/core/v1alpha3/route/route.go:202-209 | A port is collected iff it is eligible on some service |
| VirtualHosts.Dedup | pilot/pkg/networking/core/v1alpha3/route/route.go:202-209 | The distinct ports, each once |
| VirtualHosts.ServicesOnPort | pilot/pkg/networking/core/v1alpha3/route/route.go:202-209 | A service is listed for a port iff that port is eligible on it |
| VirtualHosts.WrappersFor | pilot/pkg/networking/core/v1alpha3/route/route.go:226-233 | One wrapper per port, holding that port's services, the hosts and the routes |
| VirtualHosts.PortCovered | pilot/pkg/networking/core/v1alpha3/route/route.go:202-209 | Every eligible port of a listed service is collected |
| VirtualHosts.VirtualHostsOf | pilot/pkg/networking/core/v1alpha3/route/route.go:215-233 | No wrappers iff no routes; the wrappers' ports are distinct, and each is an eligible port of some service; without eligible ports there is a single wrapper on port 80 with no services |
| VirtualHosts.VirtualHostListsServicesOnItsPort | pilot/pkg/networking/core/v1alpha3/route/route.go:202-233 | A wrapper lists a service iff the service has that port as an eligible port |
| VirtualHosts.ServicePortHasVirtualHost | pilot/pkg/networking/core/v1alpha3/route/route.go:202-233 | Given routes, each eligible port of each listed service has a wrapper |
| VirtualHosts.ConfigWrappers | pilot/pkg/networking/core/v1alpha3/route/route.go:97-104 | The wrappers from configuration are exactly those of the VirtualServices |
| VirtualHosts.ConfigWrappersConcat | pilot/pkg/networking/core/v1alpha3/route/route.go:97-104 | The wrappers of consecutive VirtualServices are concatenated in VirtualService order |
| VirtualHosts.Missing | pilot/pkg/networking/core/v1alpha3/route/route.go:107-115 | A registry host is missing iff no wrapper lists a service with that host name |
| VirtualHosts.DefaultServiceRoute | pilot/pkg/networking/core/v1alpha3/route/route.go:121-129 | The default route is a catch-all forward named `default` to the service port's outbound cluster, with the default retry and a trace decorator |
| VirtualHosts.DefaultPortWrappers | pilot/pkg/networking/core/v1alpha3/route/route.go:120-136 | Each HTTP-eligible port of a service gets one wrapper holding only that service and its default route |
| VirtualHosts.DefaultWrappers | pilot/pkg/networking/core/v1alpha3/route/route.go:118-137 | A default wrapper exists iff it belongs to some missing host |
| VirtualHosts.BuildSidecarVirtualHostsFromConfigAndRegistry | pilot/pkg/networking/core/v1alpha3/route/route.go:87-140 | The configured wrappers come first, then default wrappers exactly for the registry hosts that none of them lists |
| VirtualHosts.ListedServiceFromRegistry | pilot/pkg/networking/core/v1alpha3/route/route.go:144-233 | A service listed in a VirtualService's wrapper is one of its separated services and a registry entry |
| VirtualHosts.ListedServiceOnEveryPort | pilot/pkg/networking/core/v1alpha3/route/route.go:202-233 | A listed service appears on every one of its eligible ports |
| VirtualHosts.ListedServiceCovered | pilot/pkg/networking/core/v1alpha3/route/route.go:97-115 | Every port of a registry service named by configuration has a configured wrapper listing it |
| VirtualHosts.UnlistedServiceGetsDefault | pilot/pkg/networking/core/v1alpha3/route/route.go:107-137 | A registry service that no configuration lists gets a default wrapper on each eligible port |
| VirtualHosts.EveryServicePortHasVirtualHost | pilot/pkg/networking/core/v1alpha3/route/route.go:87-140 | Every eligible port of every registry service ends up in some virtual host that lists the service |
| VirtualHosts.DefaultWrapperShape | pilot/pkg/networking/core/v1alpha3/route/route.go:118-137 | A default wrapper holds one service, no hosts and one catch-all default route |
| VirtualHosts.DefaultsOnlyForUnlisted | pilot/pkg/networking/core/v1alpha3/route/route.go:107-137 | Default wrappers are only for registry services that configuration does not list |
| Sorting.StableSort | pilot/pkg/networking/core/v1alpha3/route/route.go:564 | Sorting keeps the length and the elements |
| Sorting.StableSortSorted | pilot/pkg/networking/core/v1alpha3/route/route.go:564 | The result is ordered by key |
| Sorting.StableSortKeepsEqualKeysInOrder | pilot/pkg/networking/core/v1alpha3/route/route.go:564 | Elements with equal keys keep their relative order (stability) |
| Sorting.SortForgetsOrder | pilot/pkg/networking/core/v1alpha3/route/route.go:564 | With distinct keys, inputs holding the same elements sort to the same list |
| Strings.SplitJoin | pilot/pkg/networking/core/v1alpha3/route/route.go:789-791 | Joining separator-free pieces and splitting again gives them back |
| Strings.AtoiItoa | pilot/pkg/networking/core/v1alpha3/route/route.go:792-793 | Formatting an integer and parsing it back is the identity |

## Left out

- `operator/pkg/httprequest/httprequest.go` is not part of this model: it performs an HTTP GET over the network.
- Float percentages: `translatePercentToFractionalPercent` scales a float by 10000. Here the percentage is kept as an abstract `Percent` value inside `PerMillion`.
- Protobuf plumbing is not modelled: `util.MessageToAny`, `BuildConfigInfoMetadata`, `TypedPerFilterConfig` and the wrapper types. Durations are opaque `Duration` values.
- The internals of `retry.ConvertPolicy` and `retry.DefaultPolicy` are not modelled. They appear as the opaque `ConvertedRetry(spec)` and `DefaultRetry`.
- The regex engine (`regexMatcher`, lines 1116-1118) is not modelled. Regular expressions are carried as text and never evaluated.
- Logging (`log.Warnf`) is not modelled.
- Go map iteration order is modelled as an order, not a random one:
  - header maps, match header maps and query parameters are sequences in iteration order;
  - the registry scans (the wildcard pass, the missing-host loop) follow one enumeration `order`;
  - `serviceByPort` emits ports in first-appearance order.
- MatchTranslate.TranslateRouteMatch: `sort.Slice` in `translateRouteMatch` (lines 613-615) is not stable, and the order it leaves headers of equal name in is not modelled. The model sorts stably, and the contract promises only what every order gives: sorted by name, and a permutation of the declared matchers.
- An unsupported redirect code: the source assigns a nil `*RedirectAction` to the route's action (a typed nil in an interface). The model represents it as `NoAction`.
- The "not a VirtualService" error at lines 273-276 cannot arise, because the model's VirtualService input is typed.
- An unset `StringMatch` oneof is not modelled: in the source it falls through the type switches unmatched. Here `StringMatch` always holds exact, prefix or regex.
- Nil message pointers where the source dereferences without a check are not modelled: the model's fields cannot be nil, so these inputs, on which the source panics, cannot be expressed. Among them:
  - a nil query-parameter `StringMatch` (line 665);
  - a nil `allowOrigins` entry (line 745);
  - a nil route `Destination`, which reaches line 254 from line 449;
  - a nil `HTTPRoute` among the VirtualService's rules (line 281);
  - a nil `HTTPRouteDestination` among a rule's destinations (line 437);
  - a nil `HTTPMatchRequest` among a rule's match blocks, reached through `catchAllMatch` (line 288) and dereferenced at line 1059.
- Strings.Atoi does not model `strconv.Atoi`'s range error for numbers beyond the platform's integer width.
- VirtualHosts.BuildSidecarVirtualHostsForVirtualService has no contract of its own. Its host and port choices are stated on `VirtualHostsOf`; its route list is `Expansion.ExpandRules` of the VirtualService's rules, whose routes `Expansion.ExpandRulesSound` traces back to the rules, which `Expansion.ExpandRulesLoop` shows equal to the rule loop with its breaks, and which `Expansion.StopEndsExpansion` shows unaffected by rules after a stopping rule.
- VirtualHosts.VirtualServiceRoutes has no contract of its own; it is the expansion of `Expansion.ExpandRules` with the mesh gateway.
- VirtualHosts.EveryServicePortHasVirtualHost assumes `WellKeyed`. The source removes a covered host from the missing set by `service.Hostname`, so the guarantee relies on registry keys being host names.
- VirtualHosts.ListedServiceCovered assumes `WellKeyed`, for the same reason.
- VirtualHosts.DefaultsOnlyForUnlisted assumes `WellKeyed`, for the same reason.
- Translate.WeightSumPreserved covers only rules with several destinations; the single-destination case is `Translate.SingleDestinationAlwaysRouted`.
- Translate.WeightedCountsNonZero covers only rules with several destinations, for the same reason.

=== FILE: combine.dfy ===
/** Merging the route lists of several VirtualServices for one virtual
    host: the catch-all routes move to the end, everything else keeps its
    relative order. */
module Combine {
  import opened Envoy
  import opened MatchTranslate
  import Seqs

  /** The route sets one after the other. */
  function Flatten(routeSets: seq<seq<Route>>): seq<Route> {
    if |routeSets| == 0 then [] else Flatten(routeSets[..|routeSets| - 1]) + routeSets[|routeSets| - 1]
  }

  /** The routes that are not catch-all, in order. */
  function Specific(rs: seq<Route>): seq<Route> {
    if |rs| == 0 then []
    else if IsCatchAllRoute(rs[|rs| - 1]) then Specific(rs[..|rs| - 1])
    else Specific(rs[..|rs| - 1]) + [rs[|rs| - 1]]
  }

  /** The catch-all routes, in order. */
  function CatchAlls(rs: seq<Route>): seq<Route> {
    if |rs| == 0 then []
    else if IsCatchAllRoute(rs[|rs| - 1]) then CatchAlls(rs[..|rs| - 1]) + [rs[|rs| - 1]]
    else CatchAlls(rs[..|rs| - 1])
  }

  /** The two selections split a list: together they hold every route as
      often as the list does, and each holds only its own kind. */
  lemma {:induction false} SelectionsPartition(rs: seq<Route>)
    ensures multiset(Specific(rs)) + multiset(CatchAlls(rs)) == multiset(rs)
    ensures |Specific(rs)| + |CatchAlls(rs)| == |rs|
    ensures forall i :: 0 <= i < |Specific(rs)| ==> !IsCatchAllRoute(Specific(rs)[i])
    ensures forall i :: 0 <= i < |CatchAlls(rs)| ==> IsCatchAllRoute(CatchAlls(rs)[i])
  {
    if |rs| > 0 {
      var front := rs[..|rs| - 1];
      SelectionsPartition(front);
      Seqs.SplitLast(rs);
    }
  }

  /** Specific routes followed by catch-all ones: a rearrangement of the
      list in which no catch-all route precedes a specific one. */
  lemma SpecificThenCatchAll(rs: seq<Route>)
    ensures |Specific(rs) + CatchAlls(rs)| == |rs|
    ensures multiset(Specific(rs) + CatchAlls(rs)) == multiset(rs)
    ensures var out := Specific(rs) + CatchAlls(rs);
            forall i, j :: 0 <= i < j < |out| && IsCatchAllRoute(out[i]) ==> IsCatchAllRoute(out[j])
  {
    SelectionsPartition(rs);
    var a := Specific(rs);
    var out := a + CatchAlls(rs);
    forall i, j | 0 <= i < j < |out| && IsCatchAllRoute(out[i])
      ensures IsCatchAllRoute(out[j])
    {
      assert i >= |a|;
      assert out[j] == CatchAlls(rs)[j - |a|];
    }
  }

  /** The inner loop of `CombineVHostRoutes`: one route set sorted onto the
      two lists built so far. */
  method SortOntoLists(routes: seq<Route>, ghost seen: seq<Route>, allRoutes: seq<Route>, catchAllRoutes: seq<Route>)
    returns (all': seq<Route>, catchAll': seq<Route>)
    requires allRoutes == Specific(seen) && catchAllRoutes == CatchAlls(seen)
    ensures all' == Specific(seen + routes) && catchAll' == CatchAlls(seen + routes)
  {
    all', catchAll' := allRoutes, catchAllRoutes;
    var j := 0;
    Seqs.TakeNone(seen, routes);
    while j < |routes|
      invariant 0 <= j <= |routes|
      invariant all' == Specific(seen + routes[..j])
      invariant catchAll' == CatchAlls(seen + routes[..j])
    {
      var r := routes[j];
      Seqs.AppendOneMore(seen, routes, j);
      if IsCatchAllRoute(r) {
        catchAll' := catchAll' + [r];
      } else {
        all' := all' + [r];
      }
      j := j + 1;
    }
    Seqs.TakeAll(routes);
  }

  /** `CombineVHostRoutes`: the non-catch-all routes of all sets in order,
      then their catch-all routes in order. Nothing is lost or added, and no
      catch-all route comes before a specific one. */
  method CombineVHostRoutes(routeSets: seq<seq<Route>>) returns (out: seq<Route>)
    ensures out == Specific(Flatten(routeSets)) + CatchAlls(Flatten(routeSets))
    ensures |out| == |Flatten(routeSets)|
    ensures multiset(out) == multiset(Flatten(routeSets))
    ensures forall i, j :: 0 <= i < j < |out| && IsCatchAllRoute(out[i]) ==> IsCatchAllRoute(out[j])
  {
    var allRoutes: seq<Route> := [];
    var catchAllRoutes: seq<Route> := [];
    var i := 0;
    while i < |routeSets|
      invariant 0 <= i <= |routeSets|
      invariant allRoutes == Specific(Flatten(routeSets[..i]))
      invariant catchAllRoutes == CatchAlls(Flatten(routeSets[..i]))
    {
      Seqs.TakeOneMore(routeSets, i);
      allRoutes, catchAllRoutes := SortOntoLists(routeSets[i], Flatten(routeSets[..i]), allRoutes, catchAllRoutes);
      i := i + 1;
    }
    Seqs.TakeAll(routeSets);
    out := allRoutes + catchAllRoutes;
    SpecificThenCatchAll(Flatten(routeSets));
  }
}

=== FILE: context.dfy ===
/** What a compilation pass is given besides the routing rules: the proxy it
    compiles for, the push context's DestinationRule lookup, and the
    process-wide feature settings the source reads from globals. */
module Context {
  import opened Wrappers
  import opened Networking

  /** The proxy's metadata: its labels and namespace. */
  datatype Proxy = Proxy(labels: map<string, string>, namespace: string)

  /** `push.DestinationRule(node, service)` for the proxy being compiled,
      keyed by the service's host name and namespace. */
  datatype PushContext = PushContext(destinationRule: (string, string) -> Option<DestinationRule>)

  /** `features.DefaultRequestTimeout` and
      `features.EnableProtocolSniffingForOutbound`. */
  datatype Features = Features(defaultRequestTimeout: Duration, sniffingForOutbound: bool)

  /** The proxy, the push context (nil-able) and the feature settings. */
  datatype Env = Env(node: Proxy, push: Option<PushContext>, features: Features)
}

=== FILE: envoy.dfy ===
/** The proxy route configuration the compiler produces: routes with their
    match predicate, redirect or forward action, header mutations, trace
    label and fault filter configuration. */
module Envoy {
  import opened Wrappers
  import opened Networking

  datatype PathSpecifier = PrefixPath(prefix: string) | ExactPath(path: string) | RegexPath(regex: string)

  datatype HeaderMatchSpecifier =
    | PresentMatch
    | ExactMatch(exact: string)
    | PrefixMatch(prefix: string)
    | SafeRegexMatch(regex: string)

  datatype HeaderMatcher = HeaderMatcher(name: string, specifier: HeaderMatchSpecifier, invertMatch: bool)

  datatype StringMatcher = SmExact(exact: string) | SmPrefix(prefix: string) | SmSafeRegex(regex: string)

  /** A query-parameter matcher; the string match is absent when the source
      has no translation for the requested kind. */
  datatype QueryParameterMatcher = QueryParameterMatcher(name: string, stringMatch: Option<StringMatcher>)

  datatype RouteMatch = RouteMatch(
    path: PathSpecifier,
    caseSensitive: Option<bool>,
    headers: seq<HeaderMatcher>,
    queryParameters: seq<QueryParameterMatcher>)

  datatype HeaderValue = HeaderValue(key: string, value: string)

  /** A header to add; `header` is nil-able as in the proto. */
  datatype HeaderValueOption = HeaderValueOption(header: Option<HeaderValue>, append: bool)

  /** A fraction: either a percentage scaled to a per-million numerator (the
      scaling itself is not modelled) or an integer numerator over 100. */
  datatype FractionalPercent = PerMillion(percent: Percent) | PerHundred(numerator: UInt32)

  datatype RedirectResponseCode = MovedPermanently | Found | SeeOther | TemporaryRedirect | PermanentRedirect

  datatype RedirectAction = RedirectAction(hostRedirect: string, pathRedirect: string, responseCode: RedirectResponseCode)

  datatype ClusterWeight = ClusterWeight(
    name: string,
    weight: UInt32,
    requestHeadersToAdd: seq<HeaderValueOption>,
    requestHeadersToRemove: seq<string>,
    responseHeadersToAdd: seq<HeaderValueOption>,
    responseHeadersToRemove: seq<string>)

  datatype ClusterSpecifier = Cluster(cluster: string) | WeightedClusters(clusters: seq<ClusterWeight>)

  datatype HashPolicy =
    | HeaderHash(headerName: string)
    | CookieHash(name: string, ttl: Option<Duration>, path: string)
    | SourceIpHash(sourceIp: bool)
    | QueryParameterHash(parameterName: string)

  /** Retry policies are produced by a translator outside this model: either
      the conversion of a rule's retry settings, or the default policy. */
  datatype RetryPolicy = ConvertedRetry(spec: Option<HTTPRetry>) | DefaultRetry

  datatype MirrorPolicy = MirrorPolicy(cluster: string, runtimeFraction: FractionalPercent, traceSampled: bool)

  datatype CorsOut = CorsOut(
    allowOriginStringMatch: seq<StringMatcher>,
    filterEnabled: FractionalPercent,
    allowCredentials: Option<bool>,
    allowHeaders: string,
    allowMethods: string,
    exposeHeaders: string,
    maxAge: Option<string>)

  datatype RouteAction = RouteAction(
    cluster: ClusterSpecifier,
    timeout: Duration,
    maxGrpcTimeout: Duration,
    retryPolicy: Option<RetryPolicy>,
    cors: Option<CorsOut>,
    prefixRewrite: Option<string>,
    hostRewrite: Option<string>,
    mirrorPolicies: seq<MirrorPolicy>,
    hashPolicy: seq<HashPolicy>)

  /** `NoAction` is a redirect whose status code has no translation. */
  datatype Action = Forward(route: RouteAction) | Redirect(redirect: RedirectAction) | NoAction

  datatype FaultDelay = FaultDelay(percentage: FractionalPercent, fixedDelay: Duration)

  datatype FaultAbort = FaultAbort(percentage: Option<FractionalPercent>, httpStatus: UInt32)

  datatype HTTPFault = HTTPFault(delay: Option<FaultDelay>, abort: Option<FaultAbort>)

  /** The fault entry of the per-filter configuration: absent, or present and
      holding the (possibly nil) translated fault. */
  datatype FaultConfig = NoFaultConfig | WithFault(fault: Option<HTTPFault>)

  datatype Route = Route(
    name: string,
    routeMatch: RouteMatch,
    action: Action,
    requestHeadersToAdd: seq<HeaderValueOption>,
    requestHeadersToRemove: seq<string>,
    responseHeadersToAdd: seq<HeaderValueOption>,
    responseHeadersToRemove: seq<string>,
    operation: string,
    faultConfig: FaultConfig)
}

=== FILE: expansion.dfy ===
/** Expansion of a VirtualService's HTTP rules into the route list for one
    listener port: each rule yields a route per match block, a rule without
    blocks or with a usable catch-all block yields one route and ends the
    expansion. */
module Expansion {
  import opened Wrappers
  import opened Networking
  import opened Envoy
  import opened Context
  import opened MatchTranslate
  import opened Translate
  import Seqs

  /** The translation of a rule under one of its match blocks, or under none;
      `RouteTranslator` is the one the route compiler uses. */
  type Translator = (HTTPRoute, Option<HTTPMatchRequest>) -> Option<Route>

  /** `translateRoute` with the proxy, the VirtualService, the registry, the
      listener port and the gateway names fixed. */
  function RouteTranslator(env: Env, vs: Config, registry: Registry, port: int,
                           gatewayNames: set<string>): (tr: Translator)
    ensures forall rule, m :: tr(rule, m) == TranslateRoute(env, rule, m, port, vs, registry, gatewayNames)
  {
    (rule, m) => TranslateRoute(env, rule, m, port, vs, registry, gatewayNames)
  }

  /** The positions of the match blocks the guards accept, in increasing
      order: every accepted block's position, and no other. */
  function AcceptedBlocks(tr: Translator, rule: HTTPRoute, ms: seq<HTTPMatchRequest>): (idx: seq<nat>)
    ensures forall i :: 0 <= i < |idx| ==> idx[i] < |ms| && tr(rule, Some(ms[idx[i]])).Some?
    ensures forall i, k :: 0 <= i < k < |idx| ==> idx[i] < idx[k]
    ensures forall j :: 0 <= j < |ms| && tr(rule, Some(ms[j])).Some? ==> j in idx
    decreases |ms|
  {
    if |ms| == 0 then []
    else
      var front := ms[..|ms| - 1];
      var prev := AcceptedBlocks(tr, rule, front);
      assert forall j :: 0 <= j < |front| ==> front[j] == ms[j];
      prev + (if tr(rule, Some(ms[|ms| - 1])).Some? then [|ms| - 1] else [])
  }

  /** The routes of the match blocks, in order, skipping those the guards
      reject. */
  function TranslateMatches(tr: Translator, rule: HTTPRoute, ms: seq<HTTPMatchRequest>): (r: seq<Route>)
    ensures |r| <= |ms|
    ensures forall i :: 0 <= i < |r| ==>
      exists j :: 0 <= j < |ms| && tr(rule, Some(ms[j])) == Some(r[i])
    decreases |ms|
  {
    if |ms| == 0 then []
    else
      var front := ms[..|ms| - 1];
      var prev := TranslateMatches(tr, rule, front);
      var last := tr(rule, Some(ms[|ms| - 1]));
      assert forall j :: 0 <= j < |front| ==> front[j] == ms[j];
      prev + (if last.Some? then [last.value] else [])
  }

  /** The i-th route of the blocks is the translation under the i-th
      accepted block: every accepted block yields its route, in block
      order, and nothing else is produced. */
  lemma {:induction false} TranslateMatchesFollowsAccepted(tr: Translator, rule: HTTPRoute, ms: seq<HTTPMatchRequest>)
    ensures |TranslateMatches(tr, rule, ms)| == |AcceptedBlocks(tr, rule, ms)|
    ensures forall i :: 0 <= i < |AcceptedBlocks(tr, rule, ms)| ==>
      tr(rule, Some(ms[AcceptedBlocks(tr, rule, ms)[i]])) == Some(TranslateMatches(tr, rule, ms)[i])
    decreases |ms|
  {
    if |ms| > 0 {
      var front := ms[..|ms| - 1];
      TranslateMatchesFollowsAccepted(tr, rule, front);
      var prev := TranslateMatches(tr, rule, front);
      var pidx := AcceptedBlocks(tr, rule, front);
      var last := tr(rule, Some(ms[|ms| - 1]));
      var r := TranslateMatches(tr, rule, ms);
      var idx := AcceptedBlocks(tr, rule, ms);
      assert r == prev + (if last.Some? then [last.value] else []);
      assert idx == pidx + (if last.Some? then [|ms| - 1] else []);
      forall i | 0 <= i < |idx|
        ensures tr(rule, Some(ms[idx[i]])) == Some(r[i])
      {
        if i < |pidx| {
          assert idx[i] == pidx[i] && r[i] == prev[i];
          assert ms[pidx[i]] == front[pidx[i]];
        }
      }
    }
  }

  /** What one rule contributes, and whether the expansion stops after it. */
  datatype Expanded = Expanded(routes: seq<Route>, stop: bool)

  /** One iteration of the rule loop. A rule without match blocks yields its
      route, if any, and stops. A rule with a catch-all block whose route the
      guards accept yields only that route and stops. Otherwise every block
      is translated, the catch-all one included, and expansion goes on. */
  function ExpandRule(tr: Translator, rule: HTTPRoute): (e: Expanded)
    ensures |rule.matches| > 0 ==> |e.routes| <= |rule.matches|
    ensures |rule.matches| == 0 ==> e.stop && |e.routes| <= 1
    ensures |rule.matches| == 0 ==> (e.routes == [] <==> tr(rule, None).None?)
    ensures |rule.matches| == 0 && e.routes != [] ==> e.routes[0] == tr(rule, None).value
    ensures e.stop && |rule.matches| > 0 ==> |e.routes| == 1 && CatchAllMatch(rule.matches).Some?
    ensures |rule.matches| > 0 ==>
      (e.stop <==> CatchAllMatch(rule.matches).Some? && tr(rule, CatchAllMatch(rule.matches)).Some?)
    ensures e.stop && |rule.matches| > 0 ==> e.routes == [tr(rule, CatchAllMatch(rule.matches)).value]
    ensures !e.stop ==> e.routes == TranslateMatches(tr, rule, rule.matches)
  {
    if |rule.matches| == 0 then
      var r := tr(rule, None);
      Expanded(if r.Some? then [r.value] else [], true)
    else
      var c := CatchAllMatch(rule.matches);
      if c.Some? && tr(rule, c).Some? then
        Expanded([tr(rule, c).value], true)
      else
        Expanded(TranslateMatches(tr, rule, rule.matches), false)
  }

  /** The route list of a sequence of rules: nothing without rules, and a
      first rule that stops is the only one contributing. */
  function ExpandRules(tr: Translator, rules: seq<HTTPRoute>): (r: seq<Route>)
    ensures |rules| == 0 ==> r == []
    ensures |rules| > 0 && ExpandRule(tr, rules[0]).stop ==> r == ExpandRule(tr, rules[0]).routes
  {
    if |rules| == 0 then []
    else
      var e := ExpandRule(tr, rules[0]);
      e.routes + (if e.stop then [] else ExpandRules(tr, rules[1..]))
  }

  /** Every route of the list is one that some rule contributes. */
  lemma {:induction false} ExpandRulesSound(tr: Translator, rules: seq<HTTPRoute>, i: int)
    requires 0 <= i < |ExpandRules(tr, rules)|
    ensures exists k :: 0 <= k < |rules| && ExpandRules(tr, rules)[i] in ExpandRule(tr, rules[k]).routes
    decreases |rules|
  {
    var e := ExpandRule(tr, rules[0]);
    var rest := rules[1..];
    var tail := if e.stop then [] else ExpandRules(tr, rest);
    var r := ExpandRules(tr, rules);
    ExpandRulesFrom(tr, rules, 0);
    assert rules[0..] == rules && rules[1..] == rest;
    assert r == e.routes + tail;
    Seqs.IndexConcat(e.routes, tail, i);
    if i < |e.routes| {
      assert r[i] in ExpandRule(tr, rules[0]).routes;
    } else {
      ExpandRulesSound(tr, rest, i - |e.routes|);
      var k :| 0 <= k < |rest| && tail[i - |e.routes|] in ExpandRule(tr, rest[k]).routes;
      assert rest[k] == rules[k + 1];
    }
  }

  /** The inner loop: every match block translated in order. */
  method TranslateMatchesLoop(tr: Translator, rule: HTTPRoute) returns (rs: seq<Route>)
    ensures rs == TranslateMatches(tr, rule, rule.matches)
  {
    var ms := rule.matches;
    rs := [];
    var j := 0;
    while j < |ms|
      invariant 0 <= j <= |ms|
      invariant rs == TranslateMatches(tr, rule, ms[..j])
    {
      var r := tr(rule, Some(ms[j]));
      assert ms[..j + 1][..j] == ms[..j] && ms[..j + 1][j] == ms[j];
      assert TranslateMatches(tr, rule, ms[..j + 1])
          == TranslateMatches(tr, rule, ms[..j]) + (if r.Some? then [r.value] else []);
      if r.Some? {
        rs := rs + [r.value];
      }
      j := j + 1;
    }
    assert ms[..j] == ms;
  }

  /** One iteration of the rule loop: the routes of the rule and whether
      the loop breaks after it. */
  method ExpandRuleStep(tr: Translator, rule: HTTPRoute) returns (rs: seq<Route>, stop: bool)
    ensures Expanded(rs, stop) == ExpandRule(tr, rule)
  {
    if |rule.matches| == 0 {
      var r := tr(rule, None);
      rs := if r.Some? then [r.value] else [];
      return rs, true;
    }
    var c := CatchAllMatch(rule.matches);
    if c.Some? {
      var r := tr(rule, c);
      if r.Some? {
        return [r.value], true;
      }
    }
    rs := TranslateMatchesLoop(tr, rule);
    stop := false;
  }

  /** The route list from rule `i` on: that rule's routes, then, unless it
      stops, those of the rules after it. */
  lemma ExpandRulesFrom(tr: Translator, rules: seq<HTTPRoute>, i: int)
    requires 0 <= i < |rules|
    ensures var e := ExpandRule(tr, rules[i]);
            ExpandRules(tr, rules[i..]) == e.routes + (if e.stop then [] else ExpandRules(tr, rules[i + 1..]))
  {
    Seqs.DropFrom(rules, i);
  }

  /** The loop over the rules of `BuildHTTPRoutesForVirtualService`, with
      its early exits, for any per-block translation. */
  method ExpandRulesLoop(tr: Translator, rules: seq<HTTPRoute>) returns (out: seq<Route>)
    ensures out == ExpandRules(tr, rules)
  {
    ghost var all := ExpandRules(tr, rules);
    out := [];
    var i := 0;
    while i < |rules|
      invariant 0 <= i <= |rules|
      invariant out + ExpandRules(tr, rules[i..]) == all
    {
      var rs, stop := ExpandRuleStep(tr, rules[i]);
      ExpandRulesFrom(tr, rules, i);
      ghost var rest := if stop then [] else ExpandRules(tr, rules[i + 1..]);
      Seqs.ConcatAssoc(out, rs, rest);
      out := out + rs;
      if stop {
        Seqs.ConcatEmpty(out);
        break;
      }
      i := i + 1;
    }
  }

  /** `BuildHTTPRoutesForVirtualService`: the routes of the rules in order,
      and an error exactly when no rule yields a route. */
  method BuildHTTPRoutesForVirtualService(env: Env, vs: Config, registry: Registry, port: int,
                                          gatewayNames: set<string>)
    returns (res: Result<seq<Route>, string>)
    ensures var tr := RouteTranslator(env, vs, registry, port, gatewayNames);
      && (res.Failure? <==> ExpandRules(tr, vs.spec.http) == [])
      && (res.Success? ==> res.value == ExpandRules(tr, vs.spec.http))
  {
    var out := ExpandRulesLoop(RouteTranslator(env, vs, registry, port, gatewayNames), vs.spec.http);
    if out == [] {
      res := Failure("no routes matched");
    } else {
      res := Success(out);
    }
  }

  /** A rule without match blocks ends the expansion: whatever follows it
      contributes nothing. */
  lemma NoMatchRuleEndsExpansion(tr: Translator, rules: seq<HTTPRoute>, k: nat, later: seq<HTTPRoute>)
    requires k < |rules| && |rules[k].matches| == 0
    ensures ExpandRules(tr, rules[..k + 1] + later)
         == ExpandRules(tr, rules[..k + 1])
  {
    StopEndsExpansion(tr, rules[..k + 1], later);
  }

  /** Any stopping rule ends the expansion: rules after it contribute
      nothing. */
  lemma {:induction false} StopEndsExpansion(tr: Translator, prefix: seq<HTTPRoute>, later: seq<HTTPRoute>)
    requires |prefix| > 0 && ExpandRule(tr, prefix[|prefix| - 1]).stop
    ensures ExpandRules(tr, prefix + later) == ExpandRules(tr, prefix)
    decreases |prefix|
  {
    Seqs.DropConcat(prefix, later);
    if !ExpandRule(tr, prefix[0]).stop {
      assert |prefix| > 1;
      StopEndsExpansion(tr, prefix[1..], later);
    }
  }

  /** A usable catch-all block makes its rule yield exactly the catch-all's
      route, and stops the expansion. */
  lemma CatchAllRuleYieldsOneRoute(tr: Translator, rule: HTTPRoute)
    requires |rule.matches| > 0 && CatchAllMatch(rule.matches).Some?
    requires tr(rule, CatchAllMatch(rule.matches)).Some?
    ensures var e := ExpandRule(tr, rule);
            && e.stop
            && e.routes == [tr(rule, CatchAllMatch(rule.matches)).value]
            && IsCatchAllMatch(CatchAllMatch(rule.matches).value)
  {
  }

  /** When the catch-all block is rejected by the guards, the rule is
      expanded block by block and the catch-all block, translated again,
      yields nothing: every route comes from another block. */
  lemma FailedCatchAllContributesNothing(tr: Translator, rule: HTTPRoute)
    requires |rule.matches| > 0 && CatchAllMatch(rule.matches).Some?
    requires tr(rule, CatchAllMatch(rule.matches)).None?
    ensures var e := ExpandRule(tr, rule);
            && !e.stop
            && forall i :: 0 <= i < |e.routes| ==>
                 exists j :: 0 <= j < |rule.matches| && rule.matches[j] != CatchAllMatch(rule.matches).value
                   && tr(rule, Some(rule.matches[j])) == Some(e.routes[i])
  {
    var e := ExpandRule(tr, rule);
    var c := CatchAllMatch(rule.matches);
    forall i | 0 <= i < |e.routes|
      ensures exists j :: 0 <= j < |rule.matches| && rule.matches[j] != c.value
                && tr(rule, Some(rule.matches[j])) == Some(e.routes[i])
    {
      var j :| 0 <= j < |rule.matches|
                && tr(rule, Some(rule.matches[j])) == Some(e.routes[i]);
      assert rule.matches[j] != c.value;
    }
  }
}

=== FILE: hash_policy.dfy ===
/** Consistent-hash load balancing hints: which DestinationRule setting
    applies to a destination (`getHashPolicy`, `getHashPolicyByService`,
    `portLevelSettingsConsistentHash`) and how it becomes a route hash policy
    (`consistentHashToHashPolicy`). */
module HashPolicies {
  import opened Wrappers
  import opened Networking
  import opened Envoy
  import opened Context
  import ServiceModel

  /** The hash key a hash policy hashes on: the inverse of the translation. */
  function HashKeyOf(p: HashPolicy): HashKey {
    match p
    case HeaderHash(n) => HttpHeaderName(n)
    case CookieHash(name, ttl, path) => HttpCookieKey(HTTPCookie(name, path, ttl))
    case SourceIpHash(b) => UseSourceIp(b)
    case QueryParameterHash(n) => HttpQueryParameterName(n)
  }

  /** `consistentHashToHashPolicy`: no policy without a hash key; otherwise
      the policy of the same kind, hashing on the same header, cookie
      (name, TTL, path), source address or query parameter. */
  function ConsistentHashToHashPolicy(ch: Option<ConsistentHashLB>): (r: Option<HashPolicy>)
    ensures r.None? <==> ch.None? || ch.value.hashKey.None?
    ensures r.Some? ==> HashKeyOf(r.value) == ch.value.hashKey.value
  {
    if ch.None? then None
    else
      match ch.value.hashKey
      case None => None
      case Some(HttpHeaderName(n)) => Some(HeaderHash(n))
      case Some(HttpCookieKey(c)) => Some(CookieHash(c.name, c.ttl, c.path))
      case Some(UseSourceIp(b)) => Some(SourceIpHash(b))
      case Some(HttpQueryParameterName(n)) => Some(QueryParameterHash(n))
  }

  /** The index of the first port-level setting for `port`. */
  function FirstPortSetting(pls: seq<PortTrafficPolicy>, port: int): (r: Option<nat>)
    ensures r.None? <==> forall i :: 0 <= i < |pls| ==> pls[i].portNumber != port
    ensures r.Some? ==> r.value < |pls| && pls[r.value].portNumber == port
                        && forall j :: 0 <= j < r.value ==> pls[j].portNumber != port
  {
    if |pls| == 0 then None
    else if pls[0].portNumber == port then Some(0)
    else
      var r := FirstPortSetting(pls[1..], port);
      assert forall i :: 1 <= i < |pls| ==> pls[i] == pls[1..][i - 1];
      if r.Some? then Some(r.value + 1) else None
  }

  /** `portLevelSettingsConsistentHash`: for a destination with a port, the
      consistent hash of the first port-level setting for that port (nil if
      that setting has none); nil when the destination has no port or no
      setting names its port. */
  function PortLevelSettingsConsistentHash(dst: Destination, pls: seq<PortTrafficPolicy>): (r: Option<ConsistentHashLB>)
    ensures dst.port.None? ==> r.None?
    ensures dst.port.Some? ==>
      var i := FirstPortSetting(pls, dst.port.value);
      r == if i.Some? then ConsistentHashOf(pls[i.value].loadBalancer) else None
  {
    if dst.port.None? then None
    else
      var i := FirstPortSetting(pls, dst.port.value);
      if i.Some? then ConsistentHashOf(pls[i.value].loadBalancer) else None
  }

  /** The index of the first subset with the given name. */
  function FirstSubset(subsets: seq<Subset>, name: string): (r: Option<nat>)
    ensures r.None? <==> forall i :: 0 <= i < |subsets| ==> subsets[i].name != name
    ensures r.Some? ==> r.value < |subsets| && subsets[r.value].name == name
                        && forall j :: 0 <= j < r.value ==> subsets[j].name != name
  {
    if |subsets| == 0 then None
    else if subsets[0].name == name then Some(0)
    else
      var r := FirstSubset(subsets[1..], name);
      assert forall i :: 1 <= i < |subsets| ==> subsets[i] == subsets[1..][i - 1];
      if r.Some? then Some(r.value + 1) else None
  }

  /** The four tiers of a DestinationRule for one destination, highest
      precedence first: subset port-level, subset-level, host port-level,
      host-level. The subset tiers come from the first subset whose name is
      the destination's subset name. */
  function HashTiers(rule: DestinationRule, dst: Destination): (tiers: seq<Option<ConsistentHashLB>>)
    ensures |tiers| == 4
  {
    var hostHash := PolicyConsistentHash(rule.trafficPolicy);
    var plsHash := PortLevelSettingsConsistentHash(dst, PolicyPortLevelSettings(rule.trafficPolicy));
    var s := FirstSubset(rule.subsets, dst.subset);
    var subsetHash := if s.Some? then PolicyConsistentHash(rule.subsets[s.value].trafficPolicy) else None;
    var subsetPlsHash :=
      if s.Some? then PortLevelSettingsConsistentHash(dst, PolicyPortLevelSettings(rule.subsets[s.value].trafficPolicy))
      else None;
    [subsetPlsHash, subsetHash, plsHash, hostHash]
  }

  /** The first tier that is set, or the last tier. */
  function Effective(tiers: seq<Option<ConsistentHashLB>>): Option<ConsistentHashLB>
    requires |tiers| == 4
  {
    if tiers[0].Some? then tiers[0]
    else if tiers[1].Some? then tiers[1]
    else if tiers[2].Some? then tiers[2]
    else tiers[3]
  }

  /** `getHashPolicy`: the hash policy of the most specific consistent-hash
      setting that applies to the destination, looked up through the
      DestinationRule for its host in `configNamespace`. Without a push
      context or a DestinationRule there is none. */
  function GetHashPolicy(push: Option<PushContext>, dst: Destination, configNamespace: string): (r: Option<HashPolicy>)
    ensures push.None? ==> r.None?
    ensures push.Some? && push.value.destinationRule(dst.host, configNamespace).None? ==> r.None?
    ensures r.Some? ==>
      exists k :: 0 <= k < 4
        && var tiers := HashTiers(push.value.destinationRule(dst.host, configNamespace).value, dst);
        && tiers[k].Some? && r == ConsistentHashToHashPolicy(tiers[k])
        && forall j :: 0 <= j < k ==> tiers[j].None?
    ensures push.Some? && push.value.destinationRule(dst.host, configNamespace).Some? ==>
      var tiers := HashTiers(push.value.destinationRule(dst.host, configNamespace).value, dst);
      && (forall k :: 0 <= k < 4 && tiers[k].Some? && (forall j :: 0 <= j < k ==> tiers[j].None?) ==>
            r == ConsistentHashToHashPolicy(tiers[k]))
      && ((forall k :: 0 <= k < 4 ==> tiers[k].None?) ==> r.None?)
  {
    if push.None? then None
    else
      var rule := push.value.destinationRule(dst.host, configNamespace);
      if rule.None? then None
      else
        var tiers := HashTiers(rule.value, dst);
        var ch := Effective(tiers);
        ConsistentHashToHashPolicy(ch)
  }

  /** Precedence: once a higher tier is set, the host-level settings (global
      and per-port) do not matter. */
  lemma SubsetTiersOverrideHostTiers(rule: DestinationRule, dst: Destination, hostPolicy: Option<TrafficPolicy>)
    requires HashTiers(rule, dst)[0].Some? || HashTiers(rule, dst)[1].Some?
    ensures Effective(HashTiers(rule.(trafficPolicy := hostPolicy), dst)) == Effective(HashTiers(rule, dst))
  {
  }

  /** Precedence: a destination without a port is never affected by
      port-level settings. */
  lemma PortlessDestinationIgnoresPortLevel(rule: DestinationRule, dst: Destination)
    requires dst.port.None?
    ensures HashTiers(rule, dst)[0].None? && HashTiers(rule, dst)[2].None?
  {
  }

  /** A port-level setting for another port, placed first, changes nothing:
      only the first setting for the destination's own port counts. */
  lemma OtherPortSettingIgnored(dst: Destination, pls: seq<PortTrafficPolicy>, other: PortTrafficPolicy)
    requires dst.port.Some? && other.portNumber != dst.port.value
    ensures PortLevelSettingsConsistentHash(dst, [other] + pls) == PortLevelSettingsConsistentHash(dst, pls)
  {
    assert ([other] + pls)[1..] == pls;
  }

  /** A port-level entry for the destination's port that sets no consistent
      hash does not hide the host-level one. */
  lemma EmptyPortLevelFallsBackToHost(rule: DestinationRule, dst: Destination)
    requires HashTiers(rule, dst)[0].None? && HashTiers(rule, dst)[1].None?
    requires HashTiers(rule, dst)[2].None?
    ensures Effective(HashTiers(rule, dst)) == PolicyConsistentHash(rule.trafficPolicy)
  {
  }

  /** `getHashPolicyByService`, for a service without a VirtualService: the
      host-level consistent hash, replaced by that of the first port-level
      setting for the port, even when that setting sets none. */
  function GetHashPolicyByService(push: Option<PushContext>, svc: ServiceModel.Service, port: ServiceModel.Port): (r: Option<HashPolicy>)
    ensures push.None? ==> r.None?
    ensures push.Some? && push.value.destinationRule(svc.hostname, svc.namespace).None? ==> r.None?
    ensures push.Some? && push.value.destinationRule(svc.hostname, svc.namespace).Some? ==>
      var tp := push.value.destinationRule(svc.hostname, svc.namespace).value.trafficPolicy;
      var pls := PolicyPortLevelSettings(tp);
      var i := FirstPortSetting(pls, port.port);
      && (i.Some? ==> r == ConsistentHashToHashPolicy(ConsistentHashOf(pls[i.value].loadBalancer)))
      && (i.None? ==> r == ConsistentHashToHashPolicy(PolicyConsistentHash(tp)))
  {
    if push.None? then None
    else
      var rule := push.value.destinationRule(svc.hostname, svc.namespace);
      if rule.None? then None
      else
        var tp := rule.value.trafficPolicy;
        var pls := PolicyPortLevelSettings(tp);
        var i := FirstPortSetting(pls, port.port);
        var ch := if i.Some? then ConsistentHashOf(pls[i.value].loadBalancer) else PolicyConsistentHash(tp);
        ConsistentHashToHashPolicy(ch)
  }

  /** The two resolvers disagree on a port-level entry that sets no
      consistent hash: for a service without a VirtualService it hides the
      host-level hash, while for a routed destination on that port (with no
      matching subset) the host-level hash still applies. */
  lemma PortEntryWithoutHashHidesHostHashOnlyByService(
    push: PushContext, svc: ServiceModel.Service, port: ServiceModel.Port, dst: Destination)
    requires dst.host == svc.hostname && dst.port == Some(port.port)
    requires push.destinationRule(svc.hostname, svc.namespace).Some?
    requires FirstSubset(push.destinationRule(svc.hostname, svc.namespace).value.subsets, dst.subset).None?
    requires FirstPortSetting(PolicyPortLevelSettings(push.destinationRule(svc.hostname, svc.namespace).value.trafficPolicy), port.port).Some?
    requires ConsistentHashOf(PolicyPortLevelSettings(push.destinationRule(svc.hostname, svc.namespace).value.trafficPolicy)[
               FirstPortSetting(PolicyPortLevelSettings(push.destinationRule(svc.hostname, svc.namespace).value.trafficPolicy), port.port).value
             ].loadBalancer).None?
    ensures GetHashPolicyByService(Some(push), svc, port).None?
    ensures GetHashPolicy(Some(push), dst, svc.namespace)
         == ConsistentHashToHashPolicy(PolicyConsistentHash(push.destinationRule(svc.hostname, svc.namespace).value.trafficPolicy))
  {
  }
}

=== FILE: header_ops.dfy ===
/** Header mutations of a route or of one weighted destination
    (`SortHeaderValueOption`, `translateAppendHeaders`,
    `translateHeadersOperations`). */
module HeaderOps {
  import opened Wrappers
  import opened Strings
  import opened Sorting
  import opened Networking
  import opened Envoy

  /** The sort key of a header option: its header name, or last when nil. */
  function HeaderKey(o: HeaderValueOption): SortKey {
    if o.header.Some? then Named(o.header.value.key) else Unnamed
  }

  /** `SortHeaderValueOption.Less`: nil or headerless entries are never less,
      and are greater than every entry with a header; otherwise the header
      names are compared. It is exactly the key order of `HeaderKey`. */
  function HeaderOptionLess(a: HeaderValueOption, b: HeaderValueOption): (r: bool)
    ensures r <==> KeyLess(HeaderKey(a), HeaderKey(b))
  {
    if a.header.None? then false
    else if b.header.None? then true
    else LexLess(a.header.value.key, b.header.value.key)
  }

  /** The header options built from map entries, in iteration order. */
  function AsOptions(headers: seq<HeaderEntry>, appendFlag: bool): (r: seq<HeaderValueOption>)
    ensures |r| == |headers|
    ensures forall i :: 0 <= i < |r| ==>
              r[i] == HeaderValueOption(Some(HeaderValue(headers[i].key, headers[i].value)), appendFlag)
  {
    if |headers| == 0 then []
    else [HeaderValueOption(Some(HeaderValue(headers[0].key, headers[0].value)), appendFlag)]
         + AsOptions(headers[1..], appendFlag)
  }

  /** A well-formed Go map has no repeated key. */
  ghost predicate DistinctHeaderKeys(headers: seq<HeaderEntry>) {
    forall i, j :: 0 <= i < j < |headers| ==> headers[i].key != headers[j].key
  }

  /** `r` is `opts` sorted by header name. */
  ghost predicate IsSortedPermutation(r: seq<HeaderValueOption>, opts: seq<HeaderValueOption>) {
    SortedBy(r, HeaderKey) && multiset(r) == multiset(opts)
  }

  /** `translateAppendHeaders`: one option per entry, all carrying the given
      append flag, stably sorted by header name. */
  function TranslateAppendHeaders(headers: seq<HeaderEntry>, appendFlag: bool): (r: seq<HeaderValueOption>)
    ensures |r| == |headers|
    ensures IsSortedPermutation(r, AsOptions(headers, appendFlag))
    ensures forall i :: 0 <= i < |r| ==> r[i].header.Some? && r[i].append == appendFlag
  {
    if |headers| == 0 then []
    else
      var opts := AsOptions(headers, appendFlag);
      StableSortSorted(opts, HeaderKey);
      var r := StableSort(opts, HeaderKey);
      assert forall i :: 0 <= i < |r| ==> r[i] in multiset(opts);
      r
  }

  /** Options built from entries with distinct names have distinct keys. */
  lemma AsOptionsDistinct(headers: seq<HeaderEntry>, appendFlag: bool)
    requires DistinctHeaderKeys(headers)
    ensures DistinctKeys(AsOptions(headers, appendFlag), HeaderKey)
  {
  }

  /** Entry lists with the same elements give option lists with the same
      elements. */
  lemma AsOptionsSameElements(a: seq<HeaderEntry>, b: seq<HeaderEntry>, appendFlag: bool)
    requires forall e :: e in a <==> e in b
    ensures forall x :: x in AsOptions(a, appendFlag) <==> x in AsOptions(b, appendFlag)
  {
    var oa := AsOptions(a, appendFlag);
    var ob := AsOptions(b, appendFlag);
    forall x | x in oa ensures x in ob {
      var i :| 0 <= i < |oa| && oa[i] == x;
      assert a[i] in b;
      var j :| 0 <= j < |b| && b[j] == a[i];
      assert ob[j] == x;
    }
    forall x | x in ob ensures x in oa {
      var j :| 0 <= j < |ob| && ob[j] == x;
      assert b[j] in a;
      var i :| 0 <= i < |a| && a[i] == b[j];
      assert oa[i] == x;
    }
  }

  /** Header-add lists do not depend on the order in which Go iterates the
      header map: two enumerations of the same map give the same list. */
  lemma TranslateAppendHeadersOrderIndependent(a: seq<HeaderEntry>, b: seq<HeaderEntry>, appendFlag: bool)
    requires DistinctHeaderKeys(a) && DistinctHeaderKeys(b)
    requires |a| == |b|
    requires forall e :: e in a <==> e in b
    ensures TranslateAppendHeaders(a, appendFlag) == TranslateAppendHeaders(b, appendFlag)
  {
    if |a| > 0 {
      AsOptionsDistinct(a, appendFlag);
      AsOptionsDistinct(b, appendFlag);
      AsOptionsSameElements(a, b, appendFlag);
      SortForgetsOrder(AsOptions(a, appendFlag), AsOptions(b, appendFlag), HeaderKey);
    }
  }

  datatype HeadersOperations = HeadersOperations(
    requestHeadersToAdd: seq<HeaderValueOption>,
    responseHeadersToAdd: seq<HeaderValueOption>,
    requestHeadersToRemove: seq<string>,
    responseHeadersToRemove: seq<string>)

  const NoOperations := HeaderOperations([], [], [])

  /** `headers.GetRequest()` with nil read as no operations. */
  function RequestOperations(h: Option<Headers>): HeaderOperations {
    if h.Some? && h.value.request.Some? then h.value.request.value else NoOperations
  }

  /** `headers.GetResponse()` with nil read as no operations. */
  function ResponseOperations(h: Option<Headers>): HeaderOperations {
    if h.Some? && h.value.response.Some? then h.value.response.value else NoOperations
  }

  /** An add list made of the sorted "set" entries (append=false) followed by
      the sorted "add" entries (append=true). */
  ghost predicate IsAddList(r: seq<HeaderValueOption>, ops: HeaderOperations) {
    && |r| == |ops.toSet| + |ops.toAdd|
    && IsSortedPermutation(r[..|ops.toSet|], AsOptions(ops.toSet, false))
    && IsSortedPermutation(r[|ops.toSet|..], AsOptions(ops.toAdd, true))
    && (forall i :: 0 <= i < |ops.toSet| ==> !r[i].append)
    && (forall i :: |ops.toSet| <= i < |r| ==> r[i].append)
  }

  /** `translateHeadersOperations`: add lists for request and response as
      above, and remove lists copied with their order unchanged. */
  function TranslateHeadersOperations(headers: Option<Headers>): (r: HeadersOperations)
    ensures IsAddList(r.requestHeadersToAdd, RequestOperations(headers))
    ensures IsAddList(r.responseHeadersToAdd, ResponseOperations(headers))
    ensures r.requestHeadersToRemove == RequestOperations(headers).toRemove
    ensures r.responseHeadersToRemove == ResponseOperations(headers).toRemove
  {
    var req := RequestOperations(headers);
    var resp := ResponseOperations(headers);
    var reqAdd := TranslateAppendHeaders(req.toSet, false) + TranslateAppendHeaders(req.toAdd, true);
    var respAdd := TranslateAppendHeaders(resp.toSet, false) + TranslateAppendHeaders(resp.toAdd, true);
    assert reqAdd[..|req.toSet|] == TranslateAppendHeaders(req.toSet, false);
    assert reqAdd[|req.toSet|..] == TranslateAppendHeaders(req.toAdd, true);
    assert respAdd[..|resp.toSet|] == TranslateAppendHeaders(resp.toSet, false);
    assert respAdd[|resp.toSet|..] == TranslateAppendHeaders(resp.toAdd, true);
    HeadersOperations(reqAdd, respAdd, req.toRemove, resp.toRemove)
  }
}

=== FILE: match_translate.dfy ===
/** Translation of a match block into the proxy's route match
    (`translateRouteMatch`, `translateHeaderMatch`,
    `translateQueryParamMatch`), and the catch-all predicates on match blocks
    and on compiled routes (`isCatchAllMatch`, `catchAllMatch`,
    `isCatchAllRoute`). Regular expressions are carried as text and never
    evaluated. */
module MatchTranslate {
  import opened Wrappers
  import opened Sorting
  import opened Networking
  import opened Envoy

  /** Pseudo-header names for method, authority and scheme matches. */
  const HeaderMethod: string := ":method"
  const HeaderAuthority: string := ":authority"
  const HeaderScheme: string := ":scheme"

  /** A nil match, or the regex `*`, accepts every value of a header. */
  function IsCatchAllHeaderMatch(m: Option<StringMatch>): (b: bool)
    ensures b <==> m == None || m == Some(Regex("*"))
    ensures m.Some? && !m.value.Regex? ==> !b
  {
    match m
    case None => true
    case Some(Regex(r)) => r == "*"
    case Some(_) => false
  }

  /** `spec` asks for the same kind of match with the same pattern as `m`. */
  predicate SamePattern(m: StringMatch, spec: HeaderMatchSpecifier) {
    match m
    case Exact(x) => spec == ExactMatch(x)
    case Prefix(x) => spec == PrefixMatch(x)
    case Regex(x) => spec == SafeRegexMatch(x)
  }

  /** `translateHeaderMatch`: a catch-all header match becomes a
      present-match whatever kind was requested; any other match keeps its
      kind and pattern. */
  function TranslateHeaderMatch(name: string, m: Option<StringMatch>): (r: HeaderMatcher)
    ensures r.name == name && !r.invertMatch
    ensures r.specifier == PresentMatch <==> IsCatchAllHeaderMatch(m)
    ensures !IsCatchAllHeaderMatch(m) ==> SamePattern(m.value, r.specifier)
  {
    if IsCatchAllHeaderMatch(m) then HeaderMatcher(name, PresentMatch, false)
    else
      match m.value
      case Exact(x) => HeaderMatcher(name, ExactMatch(x), false)
      case Prefix(x) => HeaderMatcher(name, PrefixMatch(x), false)
      case Regex(x) => HeaderMatcher(name, SafeRegexMatch(x), false)
  }

  /** The matchers of a header map, each inverted when `invert` holds. */
  function HeaderMatchers(entries: seq<HeaderMatchEntry>, invert: bool): (r: seq<HeaderMatcher>)
    ensures |r| == |entries|
    ensures forall i :: 0 <= i < |r| ==>
              r[i] == TranslateHeaderMatch(entries[i].name, entries[i].stringMatch).(invertMatch := invert)
  {
    if |entries| == 0 then []
    else [TranslateHeaderMatch(entries[0].name, entries[0].stringMatch).(invertMatch := invert)]
         + HeaderMatchers(entries[1..], invert)
  }

  /** Header matchers are ordered by name. */
  function NameKey(h: HeaderMatcher): SortKey {
    Named(h.name)
  }

  /** The `:method`, `:authority` and `:scheme` matchers, in that order, for
      those of the three that the block sets. */
  function PseudoHeaders(m: HTTPMatchRequest): seq<HeaderMatcher> {
    (if m.httpMethod.Some? then [TranslateHeaderMatch(HeaderMethod, m.httpMethod)] else [])
    + (if m.authority.Some? then [TranslateHeaderMatch(HeaderAuthority, m.authority)] else [])
    + (if m.scheme.Some? then [TranslateHeaderMatch(HeaderScheme, m.scheme)] else [])
  }

  /** `translateQueryParamMatch`: exact and regex matches are kept; a prefix
      match has no translation and leaves the matcher without a pattern. */
  function TranslateQueryParamMatch(q: QueryMatchEntry): (r: QueryParameterMatcher)
    ensures r.name == q.name
    ensures r.stringMatch.None? <==> q.stringMatch.Prefix?
    ensures q.stringMatch.Exact? ==> r.stringMatch == Some(SmExact(q.stringMatch.exact))
    ensures q.stringMatch.Regex? ==> r.stringMatch == Some(SmSafeRegex(q.stringMatch.regex))
  {
    match q.stringMatch
    case Exact(x) => QueryParameterMatcher(q.name, Some(SmExact(x)))
    case Regex(x) => QueryParameterMatcher(q.name, Some(SmSafeRegex(x)))
    case Prefix(_) => QueryParameterMatcher(q.name, None)
  }

  function QueryMatchers(entries: seq<QueryMatchEntry>): (r: seq<QueryParameterMatcher>)
    ensures |r| == |entries|
    ensures forall i :: 0 <= i < |r| ==> r[i] == TranslateQueryParamMatch(entries[i])
  {
    if |entries| == 0 then [] else [TranslateQueryParamMatch(entries[0])] + QueryMatchers(entries[1..])
  }

  /** The path predicate of a URI match; no URI matches every path. */
  function PathOf(uri: Option<StringMatch>): PathSpecifier {
    match uri
    case None => PrefixPath("/")
    case Some(Exact(x)) => ExactPath(x)
    case Some(Prefix(x)) => PrefixPath(x)
    case Some(Regex(x)) => RegexPath(x)
  }

  /** The route match of an absent match block: every path, nothing else. */
  const DefaultRouteMatch := RouteMatch(PrefixPath("/"), None, [], [])

  /** `translateRouteMatch`. The declared header and without-header matches
      come first, sorted by name, without-header ones inverted; the
      `:method`, `:authority` and `:scheme` matchers follow unsorted; query
      parameters keep iteration order; case sensitivity is the negation of
      ignore-case. An absent block gives the default route match, which
      leaves case sensitivity unset. */
  function TranslateRouteMatch(m: Option<HTTPMatchRequest>): (r: RouteMatch)
    ensures m.None? ==> r == DefaultRouteMatch
    ensures m.Some? ==>
      var declared := HeaderMatchers(m.value.headers, false) + HeaderMatchers(m.value.withoutHeaders, true);
      && r.path == PathOf(m.value.uri)
      && r.caseSensitive == Some(!m.value.ignoreUriCase)
      && |r.headers| == |declared| + |PseudoHeaders(m.value)|
      && SortedBy(r.headers[..|declared|], NameKey)
      && multiset(r.headers[..|declared|]) == multiset(declared)
      && r.headers[|declared|..] == PseudoHeaders(m.value)
      && |r.queryParameters| == |m.value.queryParams|
      && (forall i :: 0 <= i < |r.queryParameters| ==>
            r.queryParameters[i] == TranslateQueryParamMatch(m.value.queryParams[i]))
  {
    if m.None? then DefaultRouteMatch
    else
      var mr := m.value;
      var declared := HeaderMatchers(mr.headers, false) + HeaderMatchers(mr.withoutHeaders, true);
      StableSortSorted(declared, NameKey);
      var sorted := StableSort(declared, NameKey);
      var headers := sorted + PseudoHeaders(mr);
      assert headers[..|declared|] == sorted;
      assert headers[|declared|..] == PseudoHeaders(mr);
      RouteMatch(PathOf(mr.uri), Some(!mr.ignoreUriCase), headers, QueryMatchers(mr.queryParams))
  }

  // ---------------------------------------------------------------------
  // Catch-all predicates

  /** `isCatchAllMatch`: the URI is the prefix `/` or the regex `*`, and
      there are no header and no query-parameter matches. A block without a
      URI is not catch-all. Without-header, method, authority and scheme
      matches are not consulted. */
  function IsCatchAllMatch(m: HTTPMatchRequest): (r: bool)
    ensures r <==> (m.uri == Some(Prefix("/")) || m.uri == Some(Regex("*")))
                   && |m.headers| == 0 && |m.queryParams| == 0
  {
    var catchall :=
      match m.uri
      case Some(Prefix(p)) => p == "/"
      case Some(Regex(x)) => x == "*"
      case _ => false;
    catchall && |m.headers| == 0 && |m.queryParams| == 0
  }

  /** `catchAllMatch`: the first catch-all block of a rule, if any. */
  function CatchAllMatch(ms: seq<HTTPMatchRequest>): (r: Option<HTTPMatchRequest>)
    ensures r.None? <==> forall i :: 0 <= i < |ms| ==> !IsCatchAllMatch(ms[i])
    ensures r.Some? ==> exists i :: 0 <= i < |ms| && ms[i] == r.value && IsCatchAllMatch(ms[i])
                                    && forall j :: 0 <= j < i ==> !IsCatchAllMatch(ms[j])
  {
    if |ms| == 0 then None
    else if IsCatchAllMatch(ms[0]) then Some(ms[0])
    else
      var r := CatchAllMatch(ms[1..]);
      assert forall i :: 1 <= i < |ms| ==> ms[i] == ms[1..][i - 1];
      r
  }

  /** `isCatchAllRoute` on a route match: path prefix `/` or regex `*`, and
      no header and no query-parameter matchers. */
  function IsCatchAllRouteMatch(rm: RouteMatch): (r: bool)
    ensures r <==> (rm.path == PrefixPath("/") || rm.path == RegexPath("*"))
                   && |rm.headers| == 0 && |rm.queryParameters| == 0
  {
    var catchall :=
      match rm.path
      case PrefixPath(p) => p == "/"
      case RegexPath(x) => x == "*"
      case ExactPath(_) => false;
    catchall && |rm.headers| == 0 && |rm.queryParameters| == 0
  }

  predicate IsCatchAllRoute(r: Route) {
    IsCatchAllRouteMatch(r.routeMatch)
  }

  /** The match built from an absent block is a catch-all route match. */
  lemma DefaultMatchIsCatchAll()
    ensures IsCatchAllRouteMatch(TranslateRouteMatch(None))
  {
  }

  /** A translated block is a catch-all route match exactly when its URI is
      absent, the prefix `/` or the regex `*`, and it sets no header,
      without-header, query-parameter, method, authority or scheme match. */
  lemma TranslatedMatchCatchAllIff(m: HTTPMatchRequest)
    ensures IsCatchAllRouteMatch(TranslateRouteMatch(Some(m))) <==>
      && (m.uri.None? || m.uri == Some(Prefix("/")) || m.uri == Some(Regex("*")))
      && |m.headers| == 0 && |m.withoutHeaders| == 0 && |m.queryParams| == 0
      && m.httpMethod.None? && m.authority.None? && m.scheme.None?
  {
    var rm := TranslateRouteMatch(Some(m));
    var declared := HeaderMatchers(m.headers, false) + HeaderMatchers(m.withoutHeaders, true);
    assert |rm.headers| == |m.headers| + |m.withoutHeaders| + |PseudoHeaders(m)|;
  }

  /** A catch-all block without without-header or pseudo-header matches
      compiles to a catch-all route; with a method match it does not, so the
      two predicates disagree on such blocks. */
  lemma CatchAllMatchCompilesToCatchAllRoute(m: HTTPMatchRequest)
    requires IsCatchAllMatch(m)
    ensures IsCatchAllRouteMatch(TranslateRouteMatch(Some(m))) <==>
      (|m.withoutHeaders| == 0 && m.httpMethod.None? && m.authority.None? && m.scheme.None?)
  {
    TranslatedMatchCatchAllIff(m);
  }

  /** A block with no URI is never catch-all, although the route it compiles
      to matches every path and is catch-all when nothing else is set. */
  lemma MissingUriIsNotCatchAll(m: HTTPMatchRequest)
    requires m.uri.None?
    ensures !IsCatchAllMatch(m)
    ensures TranslateRouteMatch(Some(m)).path == PrefixPath("/")
  {
  }
}

=== FILE: networking.dfy ===
/** The routing API the compiler reads: a VirtualService with HTTP rules,
    their match blocks and actions, and the DestinationRule traffic policies
    consulted for hash-based load balancing.

    Protobuf maps (header and query-parameter matches, header set/add
    operations) are sequences of entries in the order Go happens to iterate
    them; a well-formed map has distinct keys. A nil message is
    `None`. Integer fields keep their protobuf width as subset types. */
module Networking {
  import opened Wrappers

  type Int32 = x: int | -0x8000_0000 <= x < 0x8000_0000
  type UInt32 = x: int | 0 <= x < 0x1_0000_0000

  /** An opaque protobuf duration. */
  datatype Duration = Duration(seconds: int, nanos: int)

  /** A floating-point percentage; only its sign is inspected here. */
  datatype Percent = Percent(value: real)

  // ---------------------------------------------------------------------
  // Match blocks

  datatype StringMatch = Exact(exact: string) | Prefix(prefix: string) | Regex(regex: string)

  /** One entry of a `map[string]*StringMatch` of header matches; the match
      may be nil. */
  datatype HeaderMatchEntry = HeaderMatchEntry(name: string, stringMatch: Option<StringMatch>)

  /** One entry of the query-parameter match map. */
  datatype QueryMatchEntry = QueryMatchEntry(name: string, stringMatch: StringMatch)

  datatype HTTPMatchRequest = HTTPMatchRequest(
    name: string,
    uri: Option<StringMatch>,
    scheme: Option<StringMatch>,
    httpMethod: Option<StringMatch>,
    authority: Option<StringMatch>,
    headers: seq<HeaderMatchEntry>,
    port: UInt32,
    sourceLabels: map<string, string>,
    gateways: seq<string>,
    queryParams: seq<QueryMatchEntry>,
    ignoreUriCase: bool,
    withoutHeaders: seq<HeaderMatchEntry>,
    sourceNamespace: string)

  // ---------------------------------------------------------------------
  // Destinations and header operations

  /** `port` is the optional PortSelector's number. */
  datatype Destination = Destination(host: string, subset: string, port: Option<UInt32>)

  /** One entry of a `map[string]string` of header values. */
  datatype HeaderEntry = HeaderEntry(key: string, value: string)

  datatype HeaderOperations = HeaderOperations(toSet: seq<HeaderEntry>, toAdd: seq<HeaderEntry>, toRemove: seq<string>)

  datatype Headers = Headers(request: Option<HeaderOperations>, response: Option<HeaderOperations>)

  datatype HTTPRouteDestination = HTTPRouteDestination(destination: Destination, weight: Int32, headers: Option<Headers>)

  // ---------------------------------------------------------------------
  // Actions and policies of a rule

  datatype HTTPRedirect = HTTPRedirect(uri: string, authority: string, redirectCode: UInt32)

  datatype HTTPRewrite = HTTPRewrite(uri: string, authority: string)

  /** The retry settings; translated by a package outside this model. */
  datatype HTTPRetry = HTTPRetry(attempts: Int32, perTryTimeout: Option<Duration>, retryOn: string)

  datatype CorsPolicy = CorsPolicy(
    allowOrigin: Option<seq<string>>,
    allowOrigins: Option<seq<StringMatch>>,
    allowMethods: seq<string>,
    allowHeaders: seq<string>,
    exposeHeaders: seq<string>,
    maxAge: Option<Duration>,
    allowCredentials: Option<bool>)

  datatype DelayType = FixedDelay(fixedDelay: Duration) | ExponentialDelay(exponentialDelay: Duration)

  /** `percent` is the legacy integer field; `percentage` supersedes it. */
  datatype Delay = Delay(percent: Int32, percentage: Option<Percent>, delayType: Option<DelayType>)

  datatype ErrorType = HttpStatus(httpStatus: Int32) | GrpcStatus(grpcStatus: string) | Http2Error(http2Error: string)

  datatype Abort = Abort(percentage: Option<Percent>, errorType: Option<ErrorType>)

  datatype HTTPFaultInjection = HTTPFaultInjection(delay: Option<Delay>, abort: Option<Abort>)

  /** One HTTP rule: match blocks and exactly one of redirect or forward. */
  datatype HTTPRoute = HTTPRoute(
    name: string,
    matches: seq<HTTPMatchRequest>,
    route: seq<HTTPRouteDestination>,
    redirect: Option<HTTPRedirect>,
    rewrite: Option<HTTPRewrite>,
    timeout: Option<Duration>,
    retries: Option<HTTPRetry>,
    fault: Option<HTTPFaultInjection>,
    mirror: Option<Destination>,
    mirrorPercent: Option<UInt32>,
    mirrorPercentage: Option<Percent>,
    corsPolicy: Option<CorsPolicy>,
    headers: Option<Headers>)

  datatype VirtualService = VirtualService(hosts: seq<string>, http: seq<HTTPRoute>)

  /** A VirtualService configuration object with its name. */
  datatype Config = Config(name: string, namespace: string, spec: VirtualService)

  // ---------------------------------------------------------------------
  // DestinationRule traffic policy

  datatype HTTPCookie = HTTPCookie(name: string, path: string, ttl: Option<Duration>)

  datatype HashKey =
    | HttpHeaderName(httpHeaderName: string)
    | HttpCookieKey(httpCookie: HTTPCookie)
    | UseSourceIp(useSourceIp: bool)
    | HttpQueryParameterName(httpQueryParameterName: string)

  /** `hashKey` is the oneof, which may be unset. */
  datatype ConsistentHashLB = ConsistentHashLB(hashKey: Option<HashKey>, minimumRingSize: nat)

  datatype SimpleLB = RoundRobin | LeastConn | Random | Passthrough

  datatype LoadBalancerSettings = Simple(simple: SimpleLB) | ConsistentHash(consistentHash: ConsistentHashLB)

  /** Port-level settings; a missing port selector reads as port 0. */
  datatype PortTrafficPolicy = PortTrafficPolicy(portNumber: UInt32, loadBalancer: Option<LoadBalancerSettings>)

  datatype TrafficPolicy = TrafficPolicy(loadBalancer: Option<LoadBalancerSettings>, portLevelSettings: seq<PortTrafficPolicy>)

  datatype Subset = Subset(name: string, labels: map<string, string>, trafficPolicy: Option<TrafficPolicy>)

  datatype DestinationRule = DestinationRule(host: string, trafficPolicy: Option<TrafficPolicy>, subsets: seq<Subset>)

  /** `GetLoadBalancer().GetConsistentHash()` with Go's nil-safe getters. */
  function ConsistentHashOf(lb: Option<LoadBalancerSettings>): Option<ConsistentHashLB> {
    match lb
    case Some(ConsistentHash(ch)) => Some(ch)
    case _ => None
  }

  /** `GetTrafficPolicy().GetLoadBalancer().GetConsistentHash()`. */
  function PolicyConsistentHash(tp: Option<TrafficPolicy>): Option<ConsistentHashLB> {
    if tp.Some? then ConsistentHashOf(tp.value.loadBalancer) else None
  }

  /** `GetTrafficPolicy().GetPortLevelSettings()`. */
  function PolicyPortLevelSettings(tp: Option<TrafficPolicy>): seq<PortTrafficPolicy> {
    if tp.Some? then tp.value.portLevelSettings else []
  }
}

=== FILE: policies.dfy ===
/** Per-rule policy translators: mirror percentage (`mirrorPercent`), fault
    injection (`translateFault`) and CORS (`translateCORSPolicy`). */
module Policies {
  import opened Wrappers
  import opened Strings
  import opened Networking
  import opened Envoy

  /** Go's `int32(x)` on a `uint32`: two's-complement reinterpretation. */
  function Int32OfUint32(x: UInt32): Int32 {
    if x < 0x8000_0000 then x else x - 0x1_0000_0000
  }

  /** Go's `uint32(x)` on an `int32`. */
  function Uint32OfInt32(x: Int32): UInt32 {
    x % 0x1_0000_0000
  }

  lemma Uint32OfInt32OfUint32(x: UInt32)
    ensures Uint32OfInt32(Int32OfUint32(x)) == x
  {
  }

  /** `translatePercentToFractionalPercent`; the scaling to a per-million
      numerator is left abstract. */
  function TranslatePercentToFractionalPercent(p: Percent): FractionalPercent {
    PerMillion(p)
  }

  /** `translateIntegerToFractionalPercent`: the integer over a denominator
      of 100, reinterpreted as unsigned. */
  function TranslateIntegerToFractionalPercent(p: Int32): FractionalPercent {
    PerHundred(Uint32OfInt32(p))
  }

  /** `mirrorPercent`. The percentage field wins over the legacy integer
      field; whichever is present mirrors at its value when that is positive
      and disables mirroring when it is zero; with neither, everything is
      mirrored. */
  function MirrorPercent(rule: HTTPRoute): (r: Option<FractionalPercent>)
    ensures rule.mirrorPercentage.Some? ==>
      (r.Some? <==> rule.mirrorPercentage.value.value > 0.0)
      && (r.Some? ==> r.value == PerMillion(rule.mirrorPercentage.value))
    ensures rule.mirrorPercentage.None? && rule.mirrorPercent.Some? ==>
      (r.Some? <==> rule.mirrorPercent.value > 0)
      && (r.Some? ==> r.value == PerHundred(rule.mirrorPercent.value))
    ensures rule.mirrorPercentage.None? && rule.mirrorPercent.None? ==> r == Some(PerHundred(100))
  {
    if rule.mirrorPercentage.Some? then
      if rule.mirrorPercentage.value.value > 0.0 then
        Some(TranslatePercentToFractionalPercent(rule.mirrorPercentage.value))
      else None
    else if rule.mirrorPercent.Some? then
      if rule.mirrorPercent.value > 0 then
        Uint32OfInt32OfUint32(rule.mirrorPercent.value);
        Some(TranslateIntegerToFractionalPercent(Int32OfUint32(rule.mirrorPercent.value)))
      else None
    else Some(TranslateIntegerToFractionalPercent(100))
  }

  /** When the percentage field is set, the legacy field has no influence. */
  lemma MirrorPercentageOverridesLegacy(rule: HTTPRoute, legacy: Option<UInt32>)
    requires rule.mirrorPercentage.Some?
    ensures MirrorPercent(rule.(mirrorPercent := legacy)) == MirrorPercent(rule)
  {
  }

  // ---------------------------------------------------------------------
  // Fault injection

  /** A delay that survives translation: present and of the fixed kind. */
  predicate DelaySupported(d: Option<Delay>) {
    d.Some? && d.value.delayType.Some? && d.value.delayType.value.FixedDelay?
  }

  /** An abort that survives translation: present and of the HTTP-status kind. */
  predicate AbortSupported(a: Option<Abort>) {
    a.Some? && a.value.errorType.Some? && a.value.errorType.value.HttpStatus?
  }

  /** The delay sub-policy; its percentage falls back to the legacy integer. */
  function TranslateDelay(d: Delay): (r: Option<FaultDelay>)
    ensures r.Some? <==> DelaySupported(Some(d))
    ensures r.Some? ==> r.value.fixedDelay == d.delayType.value.fixedDelay
    ensures r.Some? && d.percentage.Some? ==> r.value.percentage == PerMillion(d.percentage.value)
    ensures r.Some? && d.percentage.None? ==> r.value.percentage == PerHundred(Uint32OfInt32(d.percent))
  {
    var percentage :=
      if d.percentage.Some? then TranslatePercentToFractionalPercent(d.percentage.value)
      else TranslateIntegerToFractionalPercent(d.percent);
    match d.delayType
    case Some(FixedDelay(fd)) => Some(FaultDelay(percentage, fd))
    case _ => None
  }

  /** The abort sub-policy; its percentage comes only from the percentage
      field, with no fallback. */
  function TranslateAbort(a: Abort): (r: Option<FaultAbort>)
    ensures r.Some? <==> AbortSupported(Some(a))
    ensures r.Some? ==> r.value.httpStatus == Uint32OfInt32(a.errorType.value.httpStatus)
    ensures r.Some? ==> (r.value.percentage.Some? <==> a.percentage.Some?)
    ensures r.Some? && a.percentage.Some? ==> r.value.percentage == Some(PerMillion(a.percentage.value))
  {
    var percentage :=
      if a.percentage.Some? then Some(TranslatePercentToFractionalPercent(a.percentage.value)) else None;
    match a.errorType
    case Some(HttpStatus(s)) => Some(FaultAbort(percentage, Uint32OfInt32(s)))
    case _ => None
  }

  /** `translateFault`: nil unless at least one of delay and abort survives;
      each survives only in its supported kind. */
  function TranslateFault(fault: Option<HTTPFaultInjection>): (r: Option<HTTPFault>)
    ensures r.Some? <==> fault.Some? && (DelaySupported(fault.value.delay) || AbortSupported(fault.value.abort))
    ensures r.Some? ==> (r.value.delay.Some? <==> DelaySupported(fault.value.delay))
    ensures r.Some? ==> (r.value.abort.Some? <==> AbortSupported(fault.value.abort))
    ensures r.Some? && r.value.delay.Some? ==> r.value.delay == TranslateDelay(fault.value.delay.value)
    ensures r.Some? && r.value.abort.Some? ==> r.value.abort == TranslateAbort(fault.value.abort.value)
  {
    if fault.None? then None
    else
      var f := fault.value;
      var delay := if f.delay.Some? then TranslateDelay(f.delay.value) else None;
      var abort := if f.abort.Some? then TranslateAbort(f.abort.value) else None;
      if delay.None? && abort.None? then None else Some(HTTPFault(delay, abort))
  }

  // ---------------------------------------------------------------------
  // CORS

  /** `convertToExactEnvoyMatch`. */
  function ConvertToExactEnvoyMatch(origins: seq<string>): (r: seq<StringMatcher>)
    ensures |r| == |origins|
    ensures forall i :: 0 <= i < |r| ==> r[i] == SmExact(origins[i])
  {
    if |origins| == 0 then [] else [SmExact(origins[0])] + ConvertToExactEnvoyMatch(origins[1..])
  }

  function EnvoyStringMatch(m: StringMatch): StringMatcher {
    match m
    case Exact(x) => SmExact(x)
    case Prefix(x) => SmPrefix(x)
    case Regex(x) => SmSafeRegex(x)
  }

  /** `convertToEnvoyMatch`: each origin match keeps its kind and pattern. */
  function ConvertToEnvoyMatch(origins: seq<StringMatch>): (r: seq<StringMatcher>)
    ensures |r| == |origins|
    ensures forall i :: 0 <= i < |r| ==> r[i] == EnvoyStringMatch(origins[i])
  {
    if |origins| == 0 then [] else [EnvoyStringMatch(origins[0])] + ConvertToEnvoyMatch(origins[1..])
  }

  /** `translateCORSPolicy`: origin matchers from the newer list when it is
      set, else exact matchers from the legacy list; filter enabled at 100%;
      header and method lists joined with commas; max age in whole seconds. */
  function TranslateCORSPolicy(policy: Option<CorsPolicy>): (r: Option<CorsOut>)
    ensures r.Some? <==> policy.Some?
    ensures r.Some? ==>
      && r.value.filterEnabled == PerHundred(100)
      && r.value.allowCredentials == policy.value.allowCredentials
      && r.value.allowHeaders == Join(policy.value.allowHeaders, ',')
      && r.value.allowMethods == Join(policy.value.allowMethods, ',')
      && r.value.exposeHeaders == Join(policy.value.exposeHeaders, ',')
      && (r.value.maxAge.Some? <==> policy.value.maxAge.Some?)
    ensures r.Some? && policy.value.allowOrigins.Some? ==>
      r.value.allowOriginStringMatch == ConvertToEnvoyMatch(policy.value.allowOrigins.value)
    ensures r.Some? && policy.value.allowOrigins.None? && policy.value.allowOrigin.Some? ==>
      r.value.allowOriginStringMatch == ConvertToExactEnvoyMatch(policy.value.allowOrigin.value)
    ensures r.Some? && policy.value.allowOrigins.None? && policy.value.allowOrigin.None? ==>
      r.value.allowOriginStringMatch == []
  {
    if policy.None? then None
    else
      var c := policy.value;
      var origins :=
        if c.allowOrigins.Some? then ConvertToEnvoyMatch(c.allowOrigins.value)
        else if c.allowOrigin.Some? then ConvertToExactEnvoyMatch(c.allowOrigin.value)
        else [];
      var maxAge := if c.maxAge.Some? then Some(Itoa(c.maxAge.value.seconds)) else None;
      Some(CorsOut(origins, PerHundred(100), c.allowCredentials,
                   Join(c.allowHeaders, ','), Join(c.allowMethods, ','), Join(c.exposeHeaders, ','),
                   maxAge))
  }

  /** The joined CORS lists and the max age can be read back: splitting a
      joined list at commas recovers it when no entry holds a comma, and the
      max age parses back to its seconds. */
  lemma CorsPolicyReadsBack(c: CorsPolicy)
    requires |c.allowHeaders| > 0 && forall i :: 0 <= i < |c.allowHeaders| ==> ',' !in c.allowHeaders[i]
    requires |c.allowMethods| > 0 && forall i :: 0 <= i < |c.allowMethods| ==> ',' !in c.allowMethods[i]
    ensures Split(TranslateCORSPolicy(Some(c)).value.allowHeaders, ',') == c.allowHeaders
    ensures Split(TranslateCORSPolicy(Some(c)).value.allowMethods, ',') == c.allowMethods
    ensures c.maxAge.Some? ==> Atoi(TranslateCORSPolicy(Some(c)).value.maxAge.value) == Some(c.maxAge.value.seconds)
  {
    SplitJoin(c.allowHeaders, ',');
    SplitJoin(c.allowMethods, ',');
    if c.maxAge.Some? {
      AtoiItoa(c.maxAge.value.seconds);
    }
  }
}

=== FILE: seqs.dfy ===
/** Facts about sequence slicing and concatenation, stated for any element
    type so that proofs about route lists can use them without reasoning
    about routes. */
module Seqs {
  lemma DropConcat<T>(a: seq<T>, b: seq<T>)
    requires |a| > 0
    ensures (a + b)[0] == a[0]
    ensures (a + b)[1..] == a[1..] + b
  {
  }

  lemma DropFrom<T>(s: seq<T>, i: int)
    requires 0 <= i < |s|
    ensures s[i..][0] == s[i]
    ensures s[i..][1..] == s[i + 1..]
  {
  }

  lemma ConcatAssoc<T>(a: seq<T>, b: seq<T>, c: seq<T>)
    ensures a + (b + c) == (a + b) + c
  {
  }

  lemma ConcatEmpty<T>(a: seq<T>)
    ensures a + [] == a
  {
  }

  lemma SplitLast<T>(s: seq<T>)
    requires |s| > 0
    ensures s == s[..|s| - 1] + [s[|s| - 1]]
  {
  }

  lemma TakeNone<T>(a: seq<T>, b: seq<T>)
    ensures a + b[..0] == a
  {
  }

  lemma TakeAll<T>(s: seq<T>)
    ensures s[..|s|] == s
  {
  }

  lemma TakeOneMore<T>(s: seq<T>, j: int)
    requires 0 <= j < |s|
    ensures s[..j + 1][..j] == s[..j]
    ensures s[..j + 1][j] == s[j]
  {
  }

  lemma AppendOneMore<T>(a: seq<T>, b: seq<T>, j: int)
    requires 0 <= j < |b|
    ensures var now := a + b[..j + 1];
            now[..|now| - 1] == a + b[..j] && now[|now| - 1] == b[j]
  {
    assert b[..j + 1] == b[..j] + [b[j]];
  }

  lemma IndexConcat<T>(a: seq<T>, b: seq<T>, i: int)
    requires 0 <= i < |a + b|
    ensures i < |a| ==> (a + b)[i] == a[i] && a[i] in a
    ensures |a| <= i ==> (a + b)[i] == b[i - |a|]
  {
  }

  lemma InPrefix<T>(s: seq<T>, n: int, x: T)
    requires 0 <= n <= |s| && x in s[..n]
    ensures x in s
  {
  }

  lemma InSuffix<T>(s: seq<T>, n: int, x: T)
    requires 0 <= n <= |s| && x in s[n..]
    ensures x in s
  {
  }
}

=== FILE: service_model.dfy ===
/** The registry-side vocabulary the route compiler consumes: services and
    their ports, host names with wildcards, label sets, and the cluster-name
    encoding `outbound|<port>|<subset>|<host>`. These helpers live in packages
    that are not part of this model; each is given the simple definition
    stated in its doc comment. */
module ServiceModel {
  import opened Wrappers
  import opened Strings

  // ---------------------------------------------------------------------
  // Host names

  /** A host name is wildcarded when it starts with `*`. */
  predicate IsWildCarded(n: string) {
    |n| > 0 && n[0] == '*'
  }

  /** Host-name matching: a wildcard name `*suffix` stands for every name that
      ends in `suffix`; two wildcards match when one suffix ends in the other;
      two plain names match when equal. */
  predicate Matches(n: string, o: string) {
    if IsWildCarded(n) && IsWildCarded(o) then
      if |n| < |o| then HasSuffix(o[1..], n[1..]) else HasSuffix(n[1..], o[1..])
    else if IsWildCarded(n) then HasSuffix(o, n[1..])
    else if IsWildCarded(o) then HasSuffix(n, o[1..])
    else n == o
  }

  // ---------------------------------------------------------------------
  // Labels

  /** `labels.Collection{proxy}.IsSupersetOf(source)`: every source label is
      present on the proxy with the same value. */
  predicate IsSupersetOf(proxy: map<string, string>, source: map<string, string>) {
    forall k :: k in source ==> k in proxy && proxy[k] == source[k]
  }

  // ---------------------------------------------------------------------
  // Services

  datatype Protocol =
    | HTTP | HTTP2 | GRPC | GRPCWeb | HTTPS | TCP | TLS
    | Mongo | Redis | MySQL | Thrift | UDP | Unsupported

  /** `protocol.IsHTTP`: the protocols served by an HTTP connection manager. */
  predicate IsHTTP(p: Protocol) {
    p == HTTP || p == HTTP2 || p == GRPC || p == GRPCWeb
  }

  datatype Port = Port(name: string, port: nat, protocol: Protocol)

  datatype Service = Service(hostname: string, ports: seq<Port>, namespace: string)

  /** A port gets HTTP routes when its protocol is HTTP-like, or when outbound
      protocol sniffing is enabled and its protocol is not declared
      (`util.IsProtocolSniffingEnabledForPort`). */
  predicate IsHTTPEligible(p: Port, sniffing: bool) {
    IsHTTP(p.protocol) || (sniffing && p.protocol == Unsupported)
  }

  // ---------------------------------------------------------------------
  // Cluster names

  /** `model.TrafficDirectionOutbound` and `model.TrafficDirectionInbound`. */
  const Outbound: string := "outbound"
  const Inbound: string := "inbound"

  datatype SubsetKey = SubsetKey(direction: string, subset: string, hostname: string, port: int)

  /** `model.BuildSubsetKey`: `<direction>|<port>|<subset>|<host>`. */
  function BuildSubsetKey(direction: string, subset: string, hostname: string, port: int): string {
    direction + "|" + Itoa(port) + "|" + subset + "|" + hostname
  }

  /** `model.IsValidSubsetKey`: exactly three separators. */
  predicate IsValidSubsetKey(s: string) {
    Count(s, '|') == 3
  }

  /** `model.ParseSubsetKey`: the first four `|`-separated pieces; zero values
      when there are fewer than four, and port 0 when the port piece is not a
      number (the source discards `strconv.Atoi`'s error). */
  function ParseSubsetKey(s: string): (k: SubsetKey)
    ensures IsValidSubsetKey(s) ==> k.hostname == Split(s, '|')[3]
    ensures |Split(s, '|')| < 4 ==> k == SubsetKey("", "", "", 0)
  {
    var parts := Split(s, '|');
    if |parts| < 4 then SubsetKey("", "", "", 0)
    else SubsetKey(parts[0], parts[2], parts[3], Atoi(parts[1]).GetOr(0))
  }

  /** The parts of a key that may appear in a cluster name unescaped. */
  predicate Encodable(k: SubsetKey) {
    '|' !in k.direction && '|' !in k.subset && '|' !in k.hostname
  }

  function Encode(k: SubsetKey): string {
    BuildSubsetKey(k.direction, k.subset, k.hostname, k.port)
  }

  /** Cluster names round-trip: a key whose textual parts hold no `|` is a
      valid cluster name and parses back to itself. */
  lemma ParseBuildRoundTrip(k: SubsetKey)
    requires Encodable(k)
    ensures IsValidSubsetKey(Encode(k))
    ensures ParseSubsetKey(Encode(k)) == k
  {
    var p := Itoa(k.port);
    ItoaHasNoSeparator(k.port, '|');
    var tail3 := k.hostname;
    var tail2 := k.subset + "|" + tail3;
    var tail1 := p + "|" + tail2;
    var s := k.direction + "|" + tail1;
    assert Encode(k) == s;
    SplitWithoutSeparator(tail3, '|');
    SplitAfterPiece(k.subset, '|', tail3);
    SplitAfterPiece(p, '|', tail2);
    SplitAfterPiece(k.direction, '|', tail1);
    assert Split(s, '|') == [k.direction, p, k.subset, k.hostname];
    AtoiItoa(k.port);
  }

  /** Different encodable keys never share a cluster name. */
  lemma BuildSubsetKeyInjective(a: SubsetKey, b: SubsetKey)
    requires Encodable(a) && Encodable(b)
    requires Encode(a) == Encode(b)
    ensures a == b
  {
    ParseBuildRoundTrip(a);
    ParseBuildRoundTrip(b);
  }
}

=== FILE: sorting.dfy ===
/** Sorting by a string key, as the route compiler sorts header lists.

    Elements are ranked by a `SortKey`: a named element by its name in
    string order, and every unnamed element after all named ones (the nil
    entries of `SortHeaderValueOption.Less`). `StableSort` is the stable sort
    of Go's `sort.Stable`; it is also one admissible outcome of the unstable
    `sort.Slice`. */
module Sorting {
  import opened Strings

  datatype SortKey = Named(name: string) | Unnamed

  /** Strict order on keys: by name, unnamed last. */
  predicate KeyLess(a: SortKey, b: SortKey) {
    match a
    case Unnamed => false
    case Named(x) => b.Unnamed? || LexLess(x, b.name)
  }

  lemma KeyLessIrreflexive(a: SortKey)
    ensures !KeyLess(a, a)
  {
    if a.Named? {
      LexLessIrreflexive(a.name);
    }
  }

  lemma KeyLessTransitive(a: SortKey, b: SortKey, c: SortKey)
    requires KeyLess(a, b) && KeyLess(b, c)
    ensures KeyLess(a, c)
  {
    if c.Named? {
      LexLessTransitive(a.name, b.name, c.name);
    }
  }

  lemma KeyLessTotal(a: SortKey, b: SortKey)
    ensures a == b || KeyLess(a, b) || KeyLess(b, a)
  {
    if a.Named? && b.Named? {
      LexLessTotal(a.name, b.name);
    }
  }

  /** Keys that are not strictly below one another are equal: the order has
      no incomparable distinct keys. */
  lemma KeyNotLessBothWays(a: SortKey, b: SortKey)
    requires !KeyLess(a, b) && !KeyLess(b, a)
    ensures a == b
  {
    KeyLessTotal(a, b);
  }

  /** No element is strictly below an earlier one. */
  ghost predicate SortedBy<T>(s: seq<T>, key: T -> SortKey) {
    forall i, j :: 0 <= i < j < |s| ==> !KeyLess(key(s[j]), key(s[i]))
  }

  /** Every element is strictly below every later one (keys are distinct). */
  ghost predicate StrictlySortedBy<T>(s: seq<T>, key: T -> SortKey) {
    forall i, j :: 0 <= i < j < |s| ==> KeyLess(key(s[i]), key(s[j]))
  }

  /** No two elements share a key. */
  ghost predicate DistinctKeys<T>(s: seq<T>, key: T -> SortKey) {
    forall i, j :: 0 <= i < j < |s| ==> key(s[i]) != key(s[j])
  }

  /** The elements of `s` whose key is `k`, in order. */
  function WithKey<T>(s: seq<T>, key: T -> SortKey, k: SortKey): seq<T> {
    if |s| == 0 then []
    else (if key(s[0]) == k then [s[0]] else []) + WithKey(s[1..], key, k)
  }

  /** Inserts `x` before the first element that is not strictly below it. */
  function Insert<T>(x: T, s: seq<T>, key: T -> SortKey): (r: seq<T>)
    ensures multiset(r) == multiset(s) + multiset{x}
    ensures |r| == |s| + 1
  {
    if |s| == 0 then [x]
    else
      assert s == [s[0]] + s[1..];
      if KeyLess(key(s[0]), key(x)) then [s[0]] + Insert(x, s[1..], key)
      else [x] + s
  }

  lemma {:induction false} InsertSorted<T>(x: T, s: seq<T>, key: T -> SortKey)
    requires SortedBy(s, key)
    ensures SortedBy(Insert(x, s, key), key)
  {
    if |s| > 0 {
      if KeyLess(key(s[0]), key(x)) {
        InsertSorted(x, s[1..], key);
        var r := Insert(x, s, key);
        forall j | 0 < j < |r|
          ensures !KeyLess(key(r[j]), key(r[0]))
        {
          assert r[j] in multiset(Insert(x, s[1..], key));
          if r[j] == x {
            KeyLessIrreflexive(key(x));
            if KeyLess(key(x), key(s[0])) {
              KeyLessTransitive(key(x), key(s[0]), key(x));
            }
          } else {
            assert r[j] in s[1..];
          }
        }
      } else {
        var r := Insert(x, s, key);
        forall j | 0 < j < |r|
          ensures !KeyLess(key(r[j]), key(x))
        {
          if KeyLess(key(r[j]), key(x)) {
            KeyLessTotal(key(x), key(s[0]));
            if j > 1 {
              assert !KeyLess(key(r[j]), key(s[0]));
              KeyLessTotal(key(r[j]), key(s[0]));
              KeyLessTransitive(key(s[0]), key(r[j]), key(x));
            }
          }
        }
      }
    }
  }

  lemma WithKeyCons<T>(e: T, t: seq<T>, key: T -> SortKey, k: SortKey)
    ensures WithKey([e] + t, key, k) == (if key(e) == k then [e] else []) + WithKey(t, key, k)
  {
    assert ([e] + t)[1..] == t;
  }

  lemma {:induction false} InsertWithKey<T>(x: T, s: seq<T>, key: T -> SortKey, k: SortKey)
    ensures WithKey(Insert(x, s, key), key, k)
         == (if key(x) == k then [x] else []) + WithKey(s, key, k)
  {
    if |s| == 0 {
      WithKeyCons(x, s, key, k);
    } else {
      assert s == [s[0]] + s[1..];
      WithKeyCons(s[0], s[1..], key, k);
      if KeyLess(key(s[0]), key(x)) {
        KeyLessIrreflexive(key(x));
        var t := Insert(x, s[1..], key);
        InsertWithKey(x, s[1..], key, k);
        WithKeyCons(s[0], t, key, k);
      } else {
        WithKeyCons(x, s, key, k);
      }
    }
  }

  lemma {:induction false} InsertStrictlySorted<T>(x: T, s: seq<T>, key: T -> SortKey)
    requires StrictlySortedBy(s, key)
    requires forall e :: e in s ==> key(e) != key(x)
    ensures StrictlySortedBy(Insert(x, s, key), key)
  {
    if |s| > 0 {
      var r := Insert(x, s, key);
      if KeyLess(key(s[0]), key(x)) {
        InsertStrictlySorted(x, s[1..], key);
        forall j | 0 < j < |r|
          ensures KeyLess(key(r[0]), key(r[j]))
        {
          assert r[j] in multiset(Insert(x, s[1..], key));
          if r[j] != x {
            assert r[j] in s[1..];
          }
        }
      } else {
        KeyLessTotal(key(s[0]), key(x));
        forall j | 0 < j < |r|
          ensures KeyLess(key(x), key(r[j]))
        {
          if j > 1 {
            KeyLessTransitive(key(x), key(s[0]), key(r[j]));
          }
        }
      }
    }
  }

  /** Stable insertion sort: the result is sorted, holds the same elements,
      and keeps the input order among elements with equal keys. */
  function StableSort<T>(s: seq<T>, key: T -> SortKey): (r: seq<T>)
    ensures |r| == |s|
    ensures multiset(r) == multiset(s)
  {
    if |s| == 0 then []
    else
      assert s == [s[0]] + s[1..];
      Insert(s[0], StableSort(s[1..], key), key)
  }

  lemma {:induction false} StableSortSorted<T>(s: seq<T>, key: T -> SortKey)
    ensures SortedBy(StableSort(s, key), key)
  {
    if |s| > 0 {
      StableSortSorted(s[1..], key);
      InsertSorted(s[0], StableSort(s[1..], key), key);
    }
  }

  /** Stability: for every key, the elements carrying it appear in the same
      order as in the input. */
  lemma {:induction false} StableSortKeepsEqualKeysInOrder<T>(s: seq<T>, key: T -> SortKey, k: SortKey)
    ensures WithKey(StableSort(s, key), key, k) == WithKey(s, key, k)
  {
    if |s| > 0 {
      StableSortKeepsEqualKeysInOrder(s[1..], key, k);
      InsertWithKey(s[0], StableSort(s[1..], key), key, k);
    }
  }

  /** With distinct keys the sorted output is strictly increasing. */
  lemma {:induction false} StableSortStrict<T>(s: seq<T>, key: T -> SortKey)
    requires DistinctKeys(s, key)
    ensures StrictlySortedBy(StableSort(s, key), key)
  {
    if |s| > 0 {
      var t := StableSort(s[1..], key);
      StableSortStrict(s[1..], key);
      forall e | e in t
        ensures key(e) != key(s[0])
      {
        assert e in multiset(s[1..]);
        var i :| 0 <= i < |s[1..]| && s[1..][i] == e;
        assert s[i + 1] == e;
      }
      InsertStrictlySorted(s[0], t, key);
    }
  }

  /** Two strictly sorted sequences with the same elements are equal: the
      sorted order of distinct keys is unique. */
  lemma {:induction false} StrictlySortedUnique<T>(a: seq<T>, b: seq<T>, key: T -> SortKey)
    requires StrictlySortedBy(a, key) && StrictlySortedBy(b, key)
    requires |a| == |b|
    requires forall x :: x in a <==> x in b
    ensures a == b
    decreases |a|
  {
    if |a| > 0 {
      assert a[0] in b;
      assert |b| > 0;
      if a[0] != b[0] {
        assert b[0] in a;
        var i :| 0 <= i < |a| && a[i] == b[0];
        var j :| 0 <= j < |b| && b[j] == a[0];
        assert KeyLess(key(a[0]), key(b[0]));
        assert KeyLess(key(b[0]), key(a[0]));
        KeyLessTransitive(key(a[0]), key(b[0]), key(a[0]));
        KeyLessIrreflexive(key(a[0]));
      }
      forall x
        ensures x in a[1..] <==> x in b[1..]
      {
        if x in a[1..] {
          var i :| 1 <= i < |a| && a[i] == x;
          KeyLessIrreflexive(key(a[0]));
          assert x in b;
        }
        if x in b[1..] {
          var i :| 1 <= i < |b| && b[i] == x;
          KeyLessIrreflexive(key(b[0]));
          assert x in a;
        }
      }
      StrictlySortedUnique(a[1..], b[1..], key);
      assert a == [a[0]] + a[1..];
      assert b == [b[0]] + b[1..];
    }
  }

  /** Sorting by distinct keys forgets the input order: lists with the same
      elements sort to the same list. */
  lemma SortForgetsOrder<T>(a: seq<T>, b: seq<T>, key: T -> SortKey)
    requires DistinctKeys(a, key) && DistinctKeys(b, key)
    requires |a| == |b|
    requires forall x :: x in a <==> x in b
    ensures StableSort(a, key) == StableSort(b, key)
  {
    var ra := StableSort(a, key);
    var rb := StableSort(b, key);
    StableSortStrict(a, key);
    StableSortStrict(b, key);
    forall x
      ensures x in ra <==> x in rb
    {
      assert x in ra <==> x in multiset(ra);
      assert x in rb <==> x in multiset(rb);
      assert x in a <==> x in multiset(a);
      assert x in b <==> x in multiset(b);
    }
    StrictlySortedUnique(ra, rb, key);
  }
}

=== FILE: strings.dfy ===
/** String helpers from Go's standard library that the route compiler relies
    on: ordering (`strings.Compare`), `strings.Split`, `strings.Join`,
    `strings.HasSuffix`, and decimal conversion (`strconv.Itoa`,
    `strconv.Atoi`, `strconv.FormatInt`). Go strings are byte strings; here a
    string is a sequence of characters, and character order agrees with the
    byte order of their UTF-8 encodings. */
module Strings {
  import opened Wrappers

  // ---------------------------------------------------------------------
  // Ordering

  /** `strings.Compare(a, b) < 0`, equivalently Go's `a < b` on strings. */
  predicate LexLess(a: string, b: string)
    decreases |a|
  {
    if |a| == 0 then |b| > 0
    else |b| > 0 && (a[0] < b[0] || (a[0] == b[0] && LexLess(a[1..], b[1..])))
  }

  lemma {:induction false} LexLessIrreflexive(a: string)
    ensures !LexLess(a, a)
    decreases |a|
  {
    if |a| > 0 {
      LexLessIrreflexive(a[1..]);
    }
  }

  lemma {:induction false} LexLessTransitive(a: string, b: string, c: string)
    requires LexLess(a, b) && LexLess(b, c)
    ensures LexLess(a, c)
    decreases |a|
  {
    if |a| > 0 && a[0] == b[0] && b[0] == c[0] {
      LexLessTransitive(a[1..], b[1..], c[1..]);
    }
  }

  /** Any two different strings are ordered one way or the other. */
  lemma {:induction false} LexLessTotal(a: string, b: string)
    ensures a == b || LexLess(a, b) || LexLess(b, a)
    decreases |a|
  {
    if |a| > 0 && |b| > 0 && a[0] == b[0] {
      LexLessTotal(a[1..], b[1..]);
      if a[1..] == b[1..] {
        assert a == [a[0]] + a[1..];
        assert b == [b[0]] + b[1..];
      }
    }
  }

  // ---------------------------------------------------------------------
  // Splitting and joining

  /** `strings.HasSuffix(s, suffix)`. */
  predicate HasSuffix(s: string, suffix: string) {
    |suffix| <= |s| && s[|s| - |suffix|..] == suffix
  }

  /** Number of occurrences of `c` in `s` (`strings.Count` for one character). */
  function Count(s: string, c: char): nat {
    if |s| == 0 then 0 else (if s[0] == c then 1 else 0) + Count(s[1..], c)
  }

  /** `strings.Split(s, string(sep))`: the pieces between separators, which
      are one more than the separators and never contain one. */
  function Split(s: string, sep: char): (parts: seq<string>)
    ensures |parts| == Count(s, sep) + 1
    ensures forall i :: 0 <= i < |parts| ==> sep !in parts[i]
  {
    if |s| == 0 then [""]
    else
      var rest := Split(s[1..], sep);
      if s[0] == sep then [""] + rest
      else [[s[0]] + rest[0]] + rest[1..]
  }

  /** `strings.Join(parts, string(sep))`. */
  function Join(parts: seq<string>, sep: char): string {
    if |parts| == 0 then ""
    else if |parts| == 1 then parts[0]
    else parts[0] + [sep] + Join(parts[1..], sep)
  }

  lemma {:induction false} SplitWithoutSeparator(a: string, sep: char)
    requires sep !in a
    ensures Split(a, sep) == [a]
  {
    if |a| > 0 {
      SplitWithoutSeparator(a[1..], sep);
      assert a == [a[0]] + a[1..];
    }
  }

  /** Splitting after a separator-free first piece yields that piece first. */
  lemma {:induction false} SplitAfterPiece(a: string, sep: char, rest: string)
    requires sep !in a
    ensures Split(a + [sep] + rest, sep) == [a] + Split(rest, sep)
  {
    var s := a + [sep] + rest;
    if |a| == 0 {
      assert s == [sep] + rest;
      assert s[1..] == rest;
    } else {
      assert s[1..] == a[1..] + [sep] + rest;
      SplitAfterPiece(a[1..], sep, rest);
      assert [a[0]] + a[1..] == a;
    }
  }

  /** Joining separator-free pieces and splitting again gives the pieces back. */
  lemma {:induction false} SplitJoin(parts: seq<string>, sep: char)
    requires |parts| > 0
    requires forall i :: 0 <= i < |parts| ==> sep !in parts[i]
    ensures Split(Join(parts, sep), sep) == parts
    decreases |parts|
  {
    if |parts| == 1 {
      SplitWithoutSeparator(parts[0], sep);
    } else {
      SplitJoin(parts[1..], sep);
      SplitAfterPiece(parts[0], sep, Join(parts[1..], sep));
      assert parts == [parts[0]] + parts[1..];
    }
  }

  // ---------------------------------------------------------------------
  // Decimal numbers

  predicate IsDigit(c: char) {
    '0' <= c <= '9'
  }

  predicate AllDigits(s: string) {
    forall i :: 0 <= i < |s| ==> IsDigit(s[i])
  }

  function DigitValue(c: char): nat
    requires IsDigit(c)
  {
    c as int - '0' as int
  }

  function DigitChar(d: nat): (c: char)
    requires d < 10
    ensures IsDigit(c) && DigitValue(c) == d
  {
    ('0' as int + d) as char
  }

  /** The shortest decimal spelling of `n`. */
  function NatToString(n: nat): (s: string)
    ensures |s| > 0 && AllDigits(s)
  {
    if n < 10 then [DigitChar(n)] else NatToString(n / 10) + [DigitChar(n % 10)]
  }

  /** The value of a string of decimal digits. */
  function ParseDigits(s: string): nat
    requires AllDigits(s)
  {
    if |s| == 0 then 0 else ParseDigits(s[..|s| - 1]) * 10 + DigitValue(s[|s| - 1])
  }

  lemma {:induction false} ParseNatToString(n: nat)
    ensures ParseDigits(NatToString(n)) == n
  {
    if n >= 10 {
      var s := NatToString(n);
      assert s[..|s| - 1] == NatToString(n / 10);
      ParseNatToString(n / 10);
    }
  }

  /** `strconv.Itoa` and `strconv.FormatInt(i, 10)`. */
  function Itoa(i: int): (s: string)
    ensures |s| > 0
    ensures forall k :: 0 <= k < |s| ==> IsDigit(s[k]) || s[k] == '-'
  {
    if i < 0 then "-" + NatToString(-i) else NatToString(i)
  }

  /** `strconv.Atoi` on inputs within the platform's integer range: an
      optional sign followed by at least one decimal digit. */
  function Atoi(s: string): Option<int> {
    if |s| > 0 && (s[0] == '-' || s[0] == '+') then
      if |s| > 1 && AllDigits(s[1..]) then
        var n: int := ParseDigits(s[1..]);
        Some(if s[0] == '-' then -n else n)
      else None
    else if |s| > 0 && AllDigits(s) then Some(ParseDigits(s))
    else None
  }

  /** Formatting an integer in decimal and parsing it back is the identity. */
  lemma AtoiItoa(i: int)
    ensures Atoi(Itoa(i)) == Some(i)
  {
    var s := Itoa(i);
    if i < 0 {
      assert s[1..] == NatToString(-i);
      ParseNatToString(-i);
    } else {
      ParseNatToString(i);
    }
  }

  lemma ItoaHasNoSeparator(i: int, sep: char)
    requires sep != '-' && !IsDigit(sep)
    ensures sep !in Itoa(i)
  {
  }
}

=== FILE: translate.dfy ===
/** Translation of one HTTP rule, under one of its match blocks, into one
    Envoy route: the source and port guards, the redirect or forwarding
    action with its weighted clusters, and the trace decorator. */
module Translate {
  import opened Wrappers
  import opened Strings
  import opened Networking
  import opened Envoy
  import opened Context
  import opened ServiceModel
  import opened HeaderOps
  import opened MatchTranslate
  import opened Policies
  import opened HashPolicies

  /** The service registry, keyed by host name. */
  type Registry = map<string, Service>

  /** `serviceRegistry[host]`, nil when absent. */
  function Lookup(registry: Registry, host: string): (r: Option<Service>)
    ensures r.Some? <==> host in registry
    ensures r.Some? ==> r.value == registry[host]
  {
    if host in registry then Some(registry[host]) else None
  }

  // ---------------------------------------------------------------------
  // Destination clusters

  /** The port a destination is routed to: its own port when set, else the
      only port of a single-port service, else the listener's port. */
  function DestinationPort(dst: Destination, svc: Option<Service>, listenerPort: int): int {
    if dst.port.Some? then dst.port.value
    else if svc.Some? && |svc.value.ports| == 1 then svc.value.ports[0].port
    else listenerPort
  }

  /** `GetDestinationCluster`: the outbound cluster of the destination's
      subset, host and port. Read back, the name yields exactly those parts. */
  function GetDestinationCluster(dst: Destination, svc: Option<Service>, listenerPort: int): (r: string)
    ensures '|' !in dst.subset && '|' !in dst.host ==>
      && IsValidSubsetKey(r)
      && ParseSubsetKey(r) == SubsetKey(Outbound, dst.subset, dst.host, DestinationPort(dst, svc, listenerPort))
  {
    var k := SubsetKey(Outbound, dst.subset, dst.host, DestinationPort(dst, svc, listenerPort));
    if '|' !in dst.subset && '|' !in dst.host then
      ParseBuildRoundTrip(k);
      Encode(k)
    else Encode(k)
  }

  /** The port choice, seen through the cluster name: an explicit port wins
      over everything; otherwise a single-port service's port wins over the
      listener port. */
  lemma DestinationClusterPortChoice(dst: Destination, svc: Option<Service>, listenerPort: int)
    requires '|' !in dst.subset && '|' !in dst.host
    ensures dst.port.Some? ==> ParseSubsetKey(GetDestinationCluster(dst, svc, listenerPort)).port == dst.port.value
    ensures dst.port.None? && svc.Some? && |svc.value.ports| == 1 ==>
      ParseSubsetKey(GetDestinationCluster(dst, svc, listenerPort)).port == svc.value.ports[0].port
    ensures dst.port.None? && (svc.None? || |svc.value.ports| != 1) ==>
      ParseSubsetKey(GetDestinationCluster(dst, svc, listenerPort)).port == listenerPort
  {
  }

  // ---------------------------------------------------------------------
  // Guards

  function AnyGateway(gateways: seq<string>, gatewayNames: set<string>): (r: bool)
    ensures r <==> exists i :: 0 <= i < |gateways| && gateways[i] in gatewayNames
  {
    if |gateways| == 0 then false
    else if gateways[0] in gatewayNames then true
    else
      var r := AnyGateway(gateways[1..], gatewayNames);
      assert forall i :: 1 <= i < |gateways| ==> gateways[i] == gateways[1..][i - 1];
      r
  }

  /** `sourceMatchHTTP`: no match block always applies; a block listing
      gateways applies exactly when one of them is being built for; otherwise
      the proxy's labels must include the block's source labels and the
      source namespace, when given, must be the proxy's. */
  function SourceMatchHTTP(m: Option<HTTPMatchRequest>, proxyLabels: map<string, string>,
                           gatewayNames: set<string>, proxyNamespace: string): (r: bool)
    ensures m.None? ==> r
    ensures m.Some? && |m.value.gateways| > 0 ==>
      (r <==> exists g :: g in m.value.gateways && g in gatewayNames)
    ensures m.Some? && |m.value.gateways| == 0 ==>
      (r <==> IsSupersetOf(proxyLabels, m.value.sourceLabels)
              && (m.value.sourceNamespace == "" || m.value.sourceNamespace == proxyNamespace))
  {
    if m.None? then true
    else if |m.value.gateways| > 0 then
      var r := AnyGateway(m.value.gateways, gatewayNames);
      assert r ==> exists g :: g in m.value.gateways && g in gatewayNames;
      r
    else
      IsSupersetOf(proxyLabels, m.value.sourceLabels)
      && (m.value.sourceNamespace == "" || m.value.sourceNamespace == proxyNamespace)
  }

  /** Once a block names gateways, the proxy's labels and namespace no longer
      matter. */
  lemma GatewaysOverrideSourceLabels(m: HTTPMatchRequest, gatewayNames: set<string>,
                                     labels1: map<string, string>, ns1: string,
                                     labels2: map<string, string>, ns2: string)
    requires |m.gateways| > 0
    ensures SourceMatchHTTP(Some(m), labels1, gatewayNames, ns1)
         == SourceMatchHTTP(Some(m), labels2, gatewayNames, ns2)
  {
  }

  /** Go's `uint32(port)` on the listener port. */
  function Uint32OfInt(port: int): UInt32 {
    port % 0x1_0000_0000
  }

  /** The destination-port guard: a block with a nonzero port applies only on
      the listener port that truncates to it. On a listener port that fits in
      32 bits that is the block's own port; a listener port 2^32 apart from
      it is accepted too. */
  function PortMatches(m: Option<HTTPMatchRequest>, port: int): (b: bool)
    ensures m.None? || m.value.port == 0 ==> b
    ensures 0 <= port < 0x1_0000_0000 && m.Some? && m.value.port != 0 ==> (b <==> m.value.port == port)
    ensures m.Some? && m.value.port != 0 ==> (b <==> (m.value.port - port) % 0x1_0000_0000 == 0)
  {
    m.None? || m.value.port == 0 || m.value.port == Uint32OfInt(port)
  }

  /** The route name: the rule's name, dotted with the block's when that is
      set. */
  function RouteName(rule: HTTPRoute, m: Option<HTTPMatchRequest>): (r: string)
    ensures HasSuffix(r, if m.Some? && m.value.name != "" then "." + m.value.name else "")
    ensures |rule.name| <= |r| && r[..|rule.name|] == rule.name
    ensures |r| == |rule.name| + (if m.Some? && m.value.name != "" then 1 + |m.value.name| else 0)
  {
    if m.Some? && m.value.name != "" then rule.name + "." + m.value.name else rule.name
  }

  // ---------------------------------------------------------------------
  // Redirects

  /** The redirect codes Envoy supports; 0 means the default, 301. */
  function RedirectCodeOf(code: UInt32): (r: Option<RedirectResponseCode>)
    ensures r.Some? <==> code in {0, 301, 302, 303, 307, 308}
  {
    if code == 0 || code == 301 then Some(MovedPermanently)
    else if code == 302 then Some(Found)
    else if code == 303 then Some(SeeOther)
    else if code == 307 then Some(TemporaryRedirect)
    else if code == 308 then Some(PermanentRedirect)
    else None
  }

  /** The HTTP status an Envoy redirect code stands for. */
  function StatusOf(rc: RedirectResponseCode): UInt32 {
    match rc
    case MovedPermanently => 301
    case Found => 302
    case SeeOther => 303
    case TemporaryRedirect => 307
    case PermanentRedirect => 308
  }

  /** Every Envoy code is reached from its own status, and every supported
      nonzero status is translated to the code that stands for it. */
  lemma RedirectCodeRoundTrip(rc: RedirectResponseCode, code: UInt32)
    ensures RedirectCodeOf(StatusOf(rc)) == Some(rc)
    ensures code != 0 && RedirectCodeOf(code).Some? ==> StatusOf(RedirectCodeOf(code).value) == code
    ensures RedirectCodeOf(0) == RedirectCodeOf(301)
  {
  }

  /** The redirect action; an unsupported code leaves the route without an
      action. */
  function TranslateRedirect(redirect: HTTPRedirect): (a: Action)
    ensures a.NoAction? <==> RedirectCodeOf(redirect.redirectCode).None?
    ensures !a.NoAction? ==>
      a == Redirect(RedirectAction(redirect.authority, redirect.uri, RedirectCodeOf(redirect.redirectCode).value))
  {
    match RedirectCodeOf(redirect.redirectCode)
    case None => NoAction
    case Some(rc) => Redirect(RedirectAction(redirect.authority, redirect.uri, rc))
  }

  // ---------------------------------------------------------------------
  // Weighted clusters

  /** A destination keeps its place when its weight is nonzero, or when it is
      the rule's only destination. */
  predicate Survives(d: HTTPRouteDestination, only: bool) {
    d.weight != 0 || only
  }

  /** The weight sent to Envoy: the only destination's zero weight becomes
      100; any other weight is reinterpreted as unsigned. */
  function WeightOf(d: HTTPRouteDestination, only: bool): (w: UInt32)
    ensures Survives(d, only) ==> w != 0
  {
    if d.weight == 0 && only then 100 else Uint32OfInt32(d.weight)
  }

  /** The namespace a destination's hash policy is looked up under. */
  function ConfigNamespace(registry: Registry, host: string): string {
    if host in registry then registry[host].namespace else ""
  }

  /** The destination's hash policy, as a list of at most one. */
  function HashPolicyOf(push: Option<PushContext>, d: HTTPRouteDestination, registry: Registry): (r: seq<HashPolicy>)
    ensures |r| <= 1
    ensures |r| == 1 <==> GetHashPolicy(push, d.destination, ConfigNamespace(registry, d.destination.host)).Some?
    ensures |r| == 1 ==> r[0] == GetHashPolicy(push, d.destination, ConfigNamespace(registry, d.destination.host)).value
  {
    var hp := GetHashPolicy(push, d.destination, ConfigNamespace(registry, d.destination.host));
    if hp.Some? then [hp.value] else []
  }

  datatype Forwarding = Forwarding(weighted: seq<ClusterWeight>, hashPolicies: seq<HashPolicy>)

  /** The cluster entry of one surviving destination. */
  function ClusterWeightOf(d: HTTPRouteDestination, only: bool, port: int, registry: Registry): (r: ClusterWeight)
    ensures r.weight == WeightOf(d, only)
  {
    var ops := TranslateHeadersOperations(d.headers);
    ClusterWeight(GetDestinationCluster(d.destination, Lookup(registry, d.destination.host), port),
                  WeightOf(d, only),
                  ops.requestHeadersToAdd, ops.requestHeadersToRemove,
                  ops.responseHeadersToAdd, ops.responseHeadersToRemove)
  }

  /** The loop over a rule's destinations: one cluster entry per surviving
      destination, in order, and the hash policy of each that has one. No
      entry carries weight zero. */
  function WeightedDestinations(push: Option<PushContext>, dsts: seq<HTTPRouteDestination>,
                                only: bool, port: int, registry: Registry): (r: Forwarding)
    ensures |r.weighted| <= |dsts|
    ensures |r.hashPolicies| <= |r.weighted|
    ensures forall i :: 0 <= i < |r.weighted| ==> r.weighted[i].weight != 0
  {
    if |dsts| == 0 then Forwarding([], [])
    else
      var rest := WeightedDestinations(push, dsts[1..], only, port, registry);
      var d := dsts[0];
      if !Survives(d, only) then rest
      else
        Forwarding([ClusterWeightOf(d, only, port, registry)] + rest.weighted,
                   HashPolicyOf(push, d, registry) + rest.hashPolicies)
  }

  /** The surviving destinations, in order. */
  function Survivors(dsts: seq<HTTPRouteDestination>, only: bool): seq<HTTPRouteDestination> {
    if |dsts| == 0 then []
    else if Survives(dsts[0], only) then [dsts[0]] + Survivors(dsts[1..], only)
    else Survivors(dsts[1..], only)
  }

  /** One cluster entry per destination, in order. */
  function ClusterWeights(ds: seq<HTTPRouteDestination>, only: bool, port: int, registry: Registry): seq<ClusterWeight> {
    if |ds| == 0 then [] else [ClusterWeightOf(ds[0], only, port, registry)] + ClusterWeights(ds[1..], only, port, registry)
  }

  /** The hash policies of the given destinations, in order, for those that
      have one. */
  function HashPoliciesOf(push: Option<PushContext>, ds: seq<HTTPRouteDestination>, registry: Registry): seq<HashPolicy> {
    if |ds| == 0 then [] else HashPolicyOf(push, ds[0], registry) + HashPoliciesOf(push, ds[1..], registry)
  }

  /** The cluster entries are exactly the surviving destinations' entries,
      one each and in order. */
  lemma {:induction false} WeightedFollowsSurvivors(push: Option<PushContext>, dsts: seq<HTTPRouteDestination>,
                                                    only: bool, port: int, registry: Registry)
    ensures WeightedDestinations(push, dsts, only, port, registry).weighted
         == ClusterWeights(Survivors(dsts, only), only, port, registry)
  {
    if |dsts| > 0 {
      var rest := dsts[1..];
      WeightedFollowsSurvivors(push, rest, only, port, registry);
      var sv := Survivors(dsts, only);
      var svr := Survivors(rest, only);
      var c := ClusterWeightOf(dsts[0], only, port, registry);
      if Survives(dsts[0], only) {
        assert WeightedDestinations(push, dsts, only, port, registry).weighted
            == [c] + WeightedDestinations(push, rest, only, port, registry).weighted;
        assert sv == [dsts[0]] + svr;
        assert sv[0] == dsts[0] && sv[1..] == svr;
        assert ClusterWeights(sv, only, port, registry) == [c] + ClusterWeights(svr, only, port, registry);
      } else {
        assert WeightedDestinations(push, dsts, only, port, registry)
            == WeightedDestinations(push, rest, only, port, registry);
        assert sv == svr;
      }
    }
  }

  /** The hash policies are exactly those of the surviving destinations that
      have one, in the same order. */
  lemma {:induction false} HashPoliciesFollowSurvivors(push: Option<PushContext>, dsts: seq<HTTPRouteDestination>,
                                                       only: bool, port: int, registry: Registry)
    ensures WeightedDestinations(push, dsts, only, port, registry).hashPolicies
         == HashPoliciesOf(push, Survivors(dsts, only), registry)
  {
    if |dsts| > 0 {
      var rest := dsts[1..];
      HashPoliciesFollowSurvivors(push, rest, only, port, registry);
      var sv := Survivors(dsts, only);
      var svr := Survivors(rest, only);
      var h := HashPolicyOf(push, dsts[0], registry);
      if Survives(dsts[0], only) {
        assert WeightedDestinations(push, dsts, only, port, registry).hashPolicies
            == h + WeightedDestinations(push, rest, only, port, registry).hashPolicies;
        assert sv == [dsts[0]] + svr;
        assert sv[0] == dsts[0] && sv[1..] == svr;
        assert HashPoliciesOf(push, sv, registry) == h + HashPoliciesOf(push, svr, registry);
      } else {
        assert WeightedDestinations(push, dsts, only, port, registry)
            == WeightedDestinations(push, rest, only, port, registry);
        assert sv == svr;
      }
    }
  }

  /** The unsigned sum of all the rule's weights. */
  function WeightSum(dsts: seq<HTTPRouteDestination>): int {
    if |dsts| == 0 then 0 else Uint32OfInt32(dsts[0].weight) + WeightSum(dsts[1..])
  }

  function ClusterWeightSum(ws: seq<ClusterWeight>): int {
    if |ws| == 0 then 0 else ws[0].weight + ClusterWeightSum(ws[1..])
  }

  /** Dropping zero weights does not change the total weight. */
  lemma WeightSumPreserved(push: Option<PushContext>, dsts: seq<HTTPRouteDestination>,
                           port: int, registry: Registry)
    ensures ClusterWeightSum(WeightedDestinations(push, dsts, false, port, registry).weighted) == WeightSum(dsts)
  {
    WeightedFollowsSurvivors(push, dsts, false, port, registry);
    SurvivorsWeightSum(dsts, port, registry);
  }

  /** The surviving entries of several destinations carry the whole unsigned
      weight, since only zero weights are dropped. */
  lemma {:induction false} SurvivorsWeightSum(dsts: seq<HTTPRouteDestination>, port: int, registry: Registry)
    ensures ClusterWeightSum(ClusterWeights(Survivors(dsts, false), false, port, registry)) == WeightSum(dsts)
  {
    if |dsts| > 0 {
      var rest := dsts[1..];
      SurvivorsWeightSum(rest, port, registry);
      var sv := Survivors(dsts, false);
      var svr := Survivors(rest, false);
      if Survives(dsts[0], false) {
        assert sv[0] == dsts[0] && sv[1..] == svr;
      } else {
        assert sv == svr;
      }
    }
  }

  function NonZeroCount(dsts: seq<HTTPRouteDestination>): nat {
    if |dsts| == 0 then 0 else (if dsts[0].weight != 0 then 1 else 0) + NonZeroCount(dsts[1..])
  }

  /** Among several destinations, exactly those with nonzero weight get a
      cluster entry. */
  lemma {:induction false} WeightedCountsNonZero(push: Option<PushContext>, dsts: seq<HTTPRouteDestination>,
                                                 port: int, registry: Registry)
    ensures |WeightedDestinations(push, dsts, false, port, registry).weighted| == NonZeroCount(dsts)
  {
    if |dsts| > 0 {
      WeightedCountsNonZero(push, dsts[1..], port, registry);
    }
  }

  /** A rule with a single destination always yields one cluster, weighted
      100 when its weight was left at zero. */
  lemma SingleDestinationAlwaysRouted(push: Option<PushContext>, d: HTTPRouteDestination,
                                      port: int, registry: Registry)
    ensures |WeightedDestinations(push, [d], true, port, registry).weighted| == 1
    ensures WeightedDestinations(push, [d], true, port, registry).weighted[0].weight
         == (if d.weight == 0 then 100 else Uint32OfInt32(d.weight))
  {
    assert [d][1..] == [];
  }

  // ---------------------------------------------------------------------
  // The route

  /** The mirror policy list: one entry when a mirror is set and its percent
      is not zero. */
  function MirrorPolicies(rule: HTTPRoute, port: int, registry: Registry): (r: seq<MirrorPolicy>)
    ensures |r| <= 1
    ensures |r| == 1 <==> rule.mirror.Some? && MirrorPercent(rule).Some?
    ensures |r| == 1 ==>
      && r[0].runtimeFraction == MirrorPercent(rule).value && !r[0].traceSampled
      && ('|' !in rule.mirror.value.subset && '|' !in rule.mirror.value.host ==>
            && IsValidSubsetKey(r[0].cluster)
            && ParseSubsetKey(r[0].cluster)
               == SubsetKey(Outbound, rule.mirror.value.subset, rule.mirror.value.host,
                            DestinationPort(rule.mirror.value, Lookup(registry, rule.mirror.value.host), port)))
  {
    if rule.mirror.Some? && MirrorPercent(rule).Some? then
      [MirrorPolicy(GetDestinationCluster(rule.mirror.value, Lookup(registry, rule.mirror.value.host), port),
                    MirrorPercent(rule).value, false)]
    else []
  }

  /** The forwarding action of a rule without a redirect, and the route's
      header lists after the single-cluster collapse. */
  function Forwarded(env: Env, rule: HTTPRoute, port: int, registry: Registry, base: Route): (r: Route)
    ensures r.name == base.name && r.routeMatch == base.routeMatch && r.action.Forward?
    ensures r.operation == base.operation && r.faultConfig == base.faultConfig
  {
    var f := WeightedDestinations(env.push, rule.route, |rule.route| == 1, port, registry);
    var timeout := rule.timeout.GetOr(env.features.defaultRequestTimeout);
    var cluster := if |f.weighted| == 1 then Cluster(f.weighted[0].name) else WeightedClusters(f.weighted);
    var action := RouteAction(
      cluster, timeout, timeout,
      Some(ConvertedRetry(rule.retries)),
      TranslateCORSPolicy(rule.corsPolicy),
      if rule.rewrite.Some? then Some(rule.rewrite.value.uri) else None,
      if rule.rewrite.Some? then Some(rule.rewrite.value.authority) else None,
      MirrorPolicies(rule, port, registry),
      f.hashPolicies);
    if |f.weighted| == 1 then
      var w := f.weighted[0];
      base.(action := Forward(action),
            requestHeadersToAdd := base.requestHeadersToAdd + w.requestHeadersToAdd,
            requestHeadersToRemove := base.requestHeadersToRemove + w.requestHeadersToRemove,
            responseHeadersToAdd := base.responseHeadersToAdd + w.responseHeadersToAdd,
            responseHeadersToRemove := base.responseHeadersToRemove + w.responseHeadersToRemove)
    else base.(action := Forward(action))
  }

  /** `translateRoute`. No route when the source or the destination port
      guard rejects the block; otherwise a route named after the rule and the
      block, matching what the block matches, redirecting or forwarding as
      the rule says, whose decorator describes the route itself and whose
      fault entry is present exactly when the rule injects faults. */
  function TranslateRoute(env: Env, rule: HTTPRoute, m: Option<HTTPMatchRequest>, port: int,
                          vs: Config, registry: Registry, gatewayNames: set<string>): (r: Option<Route>)
    ensures r.None? <==>
      !SourceMatchHTTP(m, env.node.labels, gatewayNames, env.node.namespace) || !PortMatches(m, port)
    ensures r.Some? ==> r.value.name == RouteName(rule, m) && r.value.routeMatch == TranslateRouteMatch(m)
    ensures r.Some? ==> r.value.operation == GetRouteOperation(r.value, vs.name, port)
    ensures r.Some? ==> (r.value.faultConfig.WithFault? <==> rule.fault.Some?)
    ensures r.Some? && rule.fault.Some? ==> r.value.faultConfig.fault == TranslateFault(rule.fault)
    ensures r.Some? ==> (r.value.action.Forward? <==> rule.redirect.None?)
    ensures r.Some? && rule.redirect.Some? ==> r.value.action == TranslateRedirect(rule.redirect.value)
    ensures r.Some? && rule.redirect.Some? ==>
      && r.value.requestHeadersToRemove == RequestOperations(rule.headers).toRemove
      && r.value.responseHeadersToRemove == ResponseOperations(rule.headers).toRemove
      && IsAddList(r.value.requestHeadersToAdd, RequestOperations(rule.headers))
      && IsAddList(r.value.responseHeadersToAdd, ResponseOperations(rule.headers))
  {
    if !SourceMatchHTTP(m, env.node.labels, gatewayNames, env.node.namespace) || !PortMatches(m, port) then None
    else
      var ops := TranslateHeadersOperations(rule.headers);
      var base := Route(RouteName(rule, m), TranslateRouteMatch(m), NoAction,
                        ops.requestHeadersToAdd, ops.requestHeadersToRemove,
                        ops.responseHeadersToAdd, ops.responseHeadersToRemove,
                        "", NoFaultConfig);
      var routed := if rule.redirect.Some? then base.(action := TranslateRedirect(rule.redirect.value))
                    else Forwarded(env, rule, port, registry, base);
      var fault := if rule.fault.Some? then WithFault(TranslateFault(rule.fault)) else NoFaultConfig;
      Some(Decorated(routed, vs.name, port, fault))
  }

  /** The route with its decorator, computed from the route itself, and its
      fault entry. */
  function Decorated(route: Route, vsName: string, port: int, fault: FaultConfig): (r: Route)
    ensures r.operation == GetRouteOperation(r, vsName, port) && r.faultConfig == fault
    ensures r.(operation := route.operation, faultConfig := route.faultConfig) == route
  {
    var r := route.(operation := GetRouteOperation(route, vsName, port), faultConfig := fault);
    OperationReadsMatchAndAction(route, r, vsName, port);
    r
  }

  /** A forwarding route: the timeout is the rule's or the configured
      default, for both HTTP and gRPC; the retry policy is the rule's
      converted; the hash policies are those of the surviving destinations.
      With exactly one cluster entry the route names that cluster directly
      and appends its header operations after the rule's own; otherwise it
      routes to the weighted list and keeps only the rule's headers. */
  lemma ForwardingRoute(env: Env, rule: HTTPRoute, m: Option<HTTPMatchRequest>, port: int,
                        vs: Config, registry: Registry, gatewayNames: set<string>)
    requires SourceMatchHTTP(m, env.node.labels, gatewayNames, env.node.namespace) && PortMatches(m, port)
    requires rule.redirect.None?
    ensures var r := TranslateRoute(env, rule, m, port, vs, registry, gatewayNames).value;
            var f := WeightedDestinations(env.push, rule.route, |rule.route| == 1, port, registry);
            var ops := TranslateHeadersOperations(rule.headers);
            && r.action.Forward?
            && r.action.route.timeout == r.action.route.maxGrpcTimeout
            && r.action.route.timeout == (if rule.timeout.Some? then rule.timeout.value else env.features.defaultRequestTimeout)
            && r.action.route.retryPolicy == Some(ConvertedRetry(rule.retries))
            && r.action.route.hashPolicy == f.hashPolicies
            && r.action.route.cors == TranslateCORSPolicy(rule.corsPolicy)
            && r.action.route.mirrorPolicies == MirrorPolicies(rule, port, registry)
            && (r.action.route.prefixRewrite.Some? <==> rule.rewrite.Some?)
            && (rule.rewrite.Some? ==>
                  r.action.route.prefixRewrite == Some(rule.rewrite.value.uri)
                  && r.action.route.hostRewrite == Some(rule.rewrite.value.authority))
            && (|f.weighted| == 1 ==>
                  && r.action.route.cluster == Cluster(f.weighted[0].name)
                  && r.requestHeadersToAdd == ops.requestHeadersToAdd + f.weighted[0].requestHeadersToAdd
                  && r.requestHeadersToRemove == ops.requestHeadersToRemove + f.weighted[0].requestHeadersToRemove
                  && r.responseHeadersToAdd == ops.responseHeadersToAdd + f.weighted[0].responseHeadersToAdd
                  && r.responseHeadersToRemove == ops.responseHeadersToRemove + f.weighted[0].responseHeadersToRemove)
            && (|f.weighted| != 1 ==>
                  && r.action.route.cluster == WeightedClusters(f.weighted)
                  && r.requestHeadersToAdd == ops.requestHeadersToAdd
                  && r.requestHeadersToRemove == ops.requestHeadersToRemove
                  && r.responseHeadersToAdd == ops.responseHeadersToAdd
                  && r.responseHeadersToRemove == ops.responseHeadersToRemove)
  {
  }

  /** A forwarding route carries the hash policies of the rule's surviving
      destinations, in declared order. */
  lemma ForwardingRouteHashPolicies(env: Env, rule: HTTPRoute, m: Option<HTTPMatchRequest>, port: int,
                                    vs: Config, registry: Registry, gatewayNames: set<string>)
    requires SourceMatchHTTP(m, env.node.labels, gatewayNames, env.node.namespace) && PortMatches(m, port)
    requires rule.redirect.None?
    ensures TranslateRoute(env, rule, m, port, vs, registry, gatewayNames).value.action.route.hashPolicy
         == HashPoliciesOf(env.push, Survivors(rule.route, |rule.route| == 1), registry)
  {
    ForwardingRoute(env, rule, m, port, vs, registry, gatewayNames);
    HashPoliciesFollowSurvivors(env.push, rule.route, |rule.route| == 1, port, registry);
  }

  /** The decorator of a route forwarding to a single surviving destination
      names that destination's host and port. This covers a rule with one
      destination and a split such as 100/0 whose zero-weight entries are
      dropped. */
  lemma ForwardOperationNamesDestination(env: Env, rule: HTTPRoute, m: Option<HTTPMatchRequest>, port: int,
                                         vs: Config, registry: Registry, gatewayNames: set<string>)
    requires SourceMatchHTTP(m, env.node.labels, gatewayNames, env.node.namespace) && PortMatches(m, port)
    requires rule.redirect.None? && |Survivors(rule.route, |rule.route| == 1)| == 1
    requires '|' !in Survivors(rule.route, |rule.route| == 1)[0].destination.subset
    requires '|' !in Survivors(rule.route, |rule.route| == 1)[0].destination.host
    ensures var d := Survivors(rule.route, |rule.route| == 1)[0];
      TranslateRoute(env, rule, m, port, vs, registry, gatewayNames).value.operation
      == d.destination.host + ":"
         + Itoa(DestinationPort(d.destination, Lookup(registry, d.destination.host), port))
         + PathLabel(TranslateRouteMatch(m).path)
  {
    var only := |rule.route| == 1;
    var sv := Survivors(rule.route, only);
    var d := sv[0];
    WeightedFollowsSurvivors(env.push, rule.route, only, port, registry);
    assert sv[1..] == [];
    var f := WeightedDestinations(env.push, rule.route, only, port, registry);
    assert f.weighted == [ClusterWeightOf(d, only, port, registry)];
    ForwardingRoute(env, rule, m, port, vs, registry, gatewayNames);
    var r := TranslateRoute(env, rule, m, port, vs, registry, gatewayNames).value;
    assert SingleCluster(r) == GetDestinationCluster(d.destination, Lookup(registry, d.destination.host), port);
  }

  // ---------------------------------------------------------------------
  // Trace decorators and default routes

  /** The path part of a decorator: a prefix followed by `*`, an exact path,
      or the regex. */
  function PathLabel(p: PathSpecifier): string {
    match p
    case PrefixPath(prefix) => prefix + "*"
    case ExactPath(path) => path
    case RegexPath(regex) => regex
  }

  /** The single cluster a route forwards to, or "" when it has none. */
  function SingleCluster(route: Route): string {
    if route.action.Forward? && route.action.route.cluster.Cluster? then route.action.route.cluster.cluster else ""
  }

  /** `getRouteOperation`: `<host>:<port><path>` when the route forwards to a
      single well-formed cluster, else `<virtual service>:<listener port><path>`. */
  function GetRouteOperation(route: Route, vsName: string, port: int): (op: string)
    ensures HasSuffix(op, PathLabel(route.routeMatch.path))
  {
    var c := SingleCluster(route);
    var path := PathLabel(route.routeMatch.path);
    if IsValidSubsetKey(c) then
      var k := ParseSubsetKey(c);
      k.hostname + ":" + Itoa(k.port) + path
    else vsName + ":" + Itoa(port) + path
  }

  /** The decorator depends on the route's match and action only. */
  lemma OperationReadsMatchAndAction(a: Route, b: Route, vsName: string, port: int)
    requires a.routeMatch == b.routeMatch && a.action == b.action
    ensures GetRouteOperation(a, vsName, port) == GetRouteOperation(b, vsName, port)
  {
  }

  /** A route that redirects, has no action, or splits traffic is described
      by the virtual service's name and the listener port. */
  lemma OperationWithoutSingleCluster(route: Route, vsName: string, port: int)
    requires !route.action.Forward? || route.action.route.cluster.WeightedClusters?
    ensures GetRouteOperation(route, vsName, port) == vsName + ":" + Itoa(port) + PathLabel(route.routeMatch.path)
  {
  }

  /** `traceOperation`: host, port and the label of the catch-all path that
      a route without a match block gets. */
  function TraceOperation(host: string, port: int): (op: string)
    ensures op == host + ":" + Itoa(port) + PathLabel(TranslateRouteMatch(None).path)
  {
    host + ":" + Itoa(port) + "/*"
  }

  /** The name of the default route. */
  const DefaultRouteName: string := "default"

  /** `BuildDefaultHTTPInboundRoute`: a catch-all route named "default" to
      the given cluster, with zero timeouts and no retry policy. */
  function BuildDefaultHTTPInboundRoute(clusterName: string, operation: string): (r: Route)
    ensures r.name == DefaultRouteName && r.operation == operation
    ensures IsCatchAllRoute(r)
    ensures SingleCluster(r) == clusterName
    ensures r.action.Forward? && r.action.route.retryPolicy.None?
    ensures r.action.route.timeout == Duration(0, 0) == r.action.route.maxGrpcTimeout
  {
    DefaultMatchIsCatchAll();
    Route(DefaultRouteName, TranslateRouteMatch(None),
          Forward(RouteAction(Cluster(clusterName), Duration(0, 0), Duration(0, 0), None, None, None, None, [], [])),
          [], [], [], [], operation, NoFaultConfig)
  }

  /** `BuildDefaultHTTPOutboundRoute`: the inbound default with the default
      retry policy added and nothing else changed. */
  function BuildDefaultHTTPOutboundRoute(clusterName: string, operation: string): (r: Route)
    ensures r.action.Forward? && r.action.route.retryPolicy == Some(DefaultRetry)
    ensures var inbound := BuildDefaultHTTPInboundRoute(clusterName, operation);
            r.(action := inbound.action) == inbound
            && r.action.route.(retryPolicy := None) == inbound.action.route
  {
    var inbound := BuildDefaultHTTPInboundRoute(clusterName, operation);
    inbound.(action := Forward(inbound.action.route.(retryPolicy := Some(DefaultRetry))))
  }

  /** The default outbound route to a host's cluster carries the decorator
      that `getRouteOperation` would compute for it. */
  lemma DefaultRouteOperationAgrees(host: string, port: int, vsName: string, listenerPort: int)
    requires '|' !in host
    ensures var r := BuildDefaultHTTPOutboundRoute(BuildSubsetKey(Outbound, "", host, port), TraceOperation(host, port));
            GetRouteOperation(r, vsName, listenerPort) == r.operation
  {
    ParseBuildRoundTrip(SubsetKey(Outbound, "", host, port));
  }
}

=== FILE: virtual_hosts.dfy ===
/** Virtual hosts for a sidecar's outbound HTTP listener: one group of
    virtual hosts per VirtualService, grouped by service port, and a default
    virtual host for every service port that no VirtualService covers. */
module VirtualHosts {
  import opened Wrappers
  import opened Networking
  import opened Envoy
  import opened Context
  import opened ServiceModel
  import opened HashPolicies
  import opened MatchTranslate
  import opened Translate
  import opened Expansion
  import Seqs

  /** A virtual host entry before it is rendered: the listener port, the
      registry services it stands for, the VirtualService hosts that are not
      registry services, and its routes. */
  datatype VirtualHostWrapper = VirtualHostWrapper(
    port: int,
    services: seq<Service>,
    virtualServiceHosts: seq<string>,
    routes: seq<Route>)

  /** The gateway name that stands for all sidecars. */
  const MeshGateway: string := "mesh"

  /** The port used when no service of a VirtualService has an HTTP port. */
  const FallbackPort: int := 80

  /** `order` lists every registry key exactly once: the order in which the
      registry map is ranged over. */
  ghost predicate Enumerates(order: seq<string>, registry: Registry) {
    && (forall k :: k in registry <==> k in order)
    && (forall i, j :: 0 <= i < j < |order| ==> order[i] != order[j])
  }

  /** Every service is filed under its own host name. */
  ghost predicate WellKeyed(registry: Registry) {
    forall k :: k in registry ==> registry[k].hostname == k
  }

  // ---------------------------------------------------------------------
  // Hosts and services of a VirtualService

  /** VirtualService hosts split into registry services and other names. */
  datatype Separated = Separated(hosts: seq<string>, services: seq<Service>)

  /** The services, in registry order, whose host name matches a wildcard
      host. */
  function ServicesMatching(order: seq<string>, registry: Registry, wildcard: string): (r: seq<Service>)
    ensures forall s :: s in r <==> exists k :: k in order && k in registry && Matches(k, wildcard) && registry[k] == s
    ensures r == [] <==> forall k :: k in order && k in registry ==> !Matches(k, wildcard)
  {
    if |order| == 0 then []
    else
      var rest := ServicesMatching(order[1..], registry, wildcard);
      var k := order[0];
      assert forall k' :: k' in order <==> k' == k || k' in order[1..];
      if k in registry && Matches(k, wildcard) then [registry[k]] + rest else rest
  }

  /** The first pass: plain hosts found in the registry become services,
      the others stay host names; wildcard hosts are skipped. */
  function PlainPass(hosts: seq<string>, registry: Registry): (r: Separated)
    ensures forall s :: s in r.services <==>
      exists h :: h in hosts && !IsWildCarded(h) && h in registry && registry[h] == s
    ensures forall h :: h in r.hosts <==> h in hosts && !IsWildCarded(h) && h !in registry
  {
    if |hosts| == 0 then Separated([], [])
    else
      var rest := PlainPass(hosts[1..], registry);
      var h := hosts[0];
      assert forall h' :: h' in hosts <==> h' == h || h' in hosts[1..];
      if IsWildCarded(h) then rest
      else if h in registry then Separated(rest.hosts, [registry[h]] + rest.services)
      else Separated([h] + rest.hosts, rest.services)
  }

  /** The second pass: a wildcard host becomes every registry service it
      matches, or stays a host name when it matches none. */
  function WildcardPass(hosts: seq<string>, registry: Registry, order: seq<string>): (r: Separated)
    ensures forall s :: s in r.services <==>
      exists h :: h in hosts && IsWildCarded(h) && s in ServicesMatching(order, registry, h)
    ensures forall h :: h in r.hosts <==> h in hosts && IsWildCarded(h) && ServicesMatching(order, registry, h) == []
  {
    if |hosts| == 0 then Separated([], [])
    else
      var rest := WildcardPass(hosts[1..], registry, order);
      var h := hosts[0];
      assert forall h' :: h' in hosts <==> h' == h || h' in hosts[1..];
      if !IsWildCarded(h) then rest
      else
        var m := ServicesMatching(order, registry, h);
        if m == [] then Separated([h] + rest.hosts, rest.services)
        else Separated(rest.hosts, m + rest.services)
  }

  /** `separateVSHostsAndServices`: plain hosts first, then wildcard hosts. */
  function SeparateVSHostsAndServices(hosts: seq<string>, registry: Registry, order: seq<string>): (r: Separated)
    ensures forall s :: s in r.services ==> exists k :: k in registry && registry[k] == s
  {
    var plain := PlainPass(hosts, registry);
    var wild := WildcardPass(hosts, registry, order);
    Separated(plain.hosts + wild.hosts, plain.services + wild.services)
  }

  /** A service is found for a VirtualService exactly when one of its hosts
      names it, or one of its wildcard hosts matches its name; a host stays a
      plain name exactly when it is not in the registry, or is a wildcard
      that matches nothing there. */
  lemma SeparateMembership(hosts: seq<string>, registry: Registry, order: seq<string>)
    requires Enumerates(order, registry)
    ensures var r := SeparateVSHostsAndServices(hosts, registry, order);
      && (forall s :: s in r.services <==>
            exists h :: h in hosts &&
              if IsWildCarded(h) then exists k :: k in registry && Matches(k, h) && registry[k] == s
              else h in registry && registry[h] == s)
      && (forall h :: h in r.hosts <==>
            h in hosts &&
              if IsWildCarded(h) then forall k :: k in registry ==> !Matches(k, h)
              else h !in registry)
  {
  }

  /** The split depends on the set of hosts only, not on their order or
      repetition. */
  lemma SeparateIgnoresHostOrder(hosts1: seq<string>, hosts2: seq<string>, registry: Registry, order: seq<string>)
    requires Enumerates(order, registry)
    requires forall h :: h in hosts1 <==> h in hosts2
    ensures var r1 := SeparateVSHostsAndServices(hosts1, registry, order);
            var r2 := SeparateVSHostsAndServices(hosts2, registry, order);
            (forall s :: s in r1.services <==> s in r2.services) && (forall h :: h in r1.hosts <==> h in r2.hosts)
  {
    SeparateMembership(hosts1, registry, order);
    SeparateMembership(hosts2, registry, order);
  }

  // ---------------------------------------------------------------------
  // Services by port

  /** The port numbers of a service's HTTP ports, in order. */
  function EligiblePorts(ports: seq<Port>, sniffing: bool): (r: seq<int>)
    ensures forall n :: n in r <==> exists p :: p in ports && IsHTTPEligible(p, sniffing) && p.port == n
  {
    if |ports| == 0 then []
    else
      var rest := EligiblePorts(ports[1..], sniffing);
      assert forall p :: p in ports <==> p == ports[0] || p in ports[1..];
      (if IsHTTPEligible(ports[0], sniffing) then [ports[0].port] else []) + rest
  }

  /** The HTTP port numbers of all services, in order, with repetitions. */
  function AllPorts(svcs: seq<Service>, sniffing: bool): (r: seq<int>)
    ensures forall n :: n in r <==> exists s :: s in svcs && n in EligiblePorts(s.ports, sniffing)
  {
    if |svcs| == 0 then []
    else
      var rest := AllPorts(svcs[1..], sniffing);
      assert forall s :: s in svcs <==> s == svcs[0] || s in svcs[1..];
      EligiblePorts(svcs[0].ports, sniffing) + rest
  }

  /** The distinct elements of a list, in order of first appearance. */
  function Dedup(xs: seq<int>): (r: seq<int>)
    ensures forall x :: x in r <==> x in xs
    ensures forall i, j :: 0 <= i < j < |r| ==> r[i] != r[j]
  {
    if |xs| == 0 then []
    else
      var front := xs[..|xs| - 1];
      var last := xs[|xs| - 1];
      assert xs == front + [last];
      var r := Dedup(front);
      if last in front then r else r + [last]
  }

  /** One copy of the service per HTTP port entry with the given number. */
  function PortCopies(svc: Service, ports: seq<Port>, port: int, sniffing: bool): (r: seq<Service>)
    ensures forall s :: s in r ==> s == svc
    ensures r != [] <==> port in EligiblePorts(ports, sniffing)
  {
    if |ports| == 0 then []
    else
      (if IsHTTPEligible(ports[0], sniffing) && ports[0].port == port then [svc] else [])
      + PortCopies(svc, ports[1..], port, sniffing)
  }

  /** `serviceByPort[port]`: each service once per HTTP port entry with
      that number, in the order the services come. */
  function ServicesOnPort(svcs: seq<Service>, port: int, sniffing: bool): (r: seq<Service>)
    ensures forall s :: s in r <==> s in svcs && port in EligiblePorts(s.ports, sniffing)
  {
    if |svcs| == 0 then []
    else
      var rest := ServicesOnPort(svcs[1..], port, sniffing);
      var c := PortCopies(svcs[0], svcs[0].ports, port, sniffing);
      assert forall s :: s in svcs <==> s == svcs[0] || s in svcs[1..];
      assert c != [] ==> c[0] in c;
      c + rest
  }

  /** One virtual host per port, each with the services on that port. */
  function WrappersFor(ports: seq<int>, svcs: seq<Service>, hosts: seq<string>, routes: seq<Route>,
                       sniffing: bool): (r: seq<VirtualHostWrapper>)
    ensures |r| == |ports|
    ensures forall i :: 0 <= i < |r| ==>
      r[i] == VirtualHostWrapper(ports[i], ServicesOnPort(svcs, ports[i], sniffing), hosts, routes)
  {
    if |ports| == 0 then []
    else
      [VirtualHostWrapper(ports[0], ServicesOnPort(svcs, ports[0], sniffing), hosts, routes)]
      + WrappersFor(ports[1..], svcs, hosts, routes, sniffing)
  }

  /** Every HTTP port number of a service is among the distinct ports. */
  lemma PortCovered(svcs: seq<Service>, sniffing: bool, s: Service, n: int)
    requires s in svcs && n in EligiblePorts(s.ports, sniffing)
    ensures n in Dedup(AllPorts(svcs, sniffing))
  {
    assert n in AllPorts(svcs, sniffing);
  }

  /** The virtual hosts of a VirtualService given its hosts split against
      the registry and its routes: nothing when there is no route, otherwise
      one per distinct HTTP port of its services, or a single one on port 80
      when they have none, each carrying all the routes and the non-registry
      hosts. */
  function VirtualHostsOf(sep: Separated, routes: seq<Route>, sniffing: bool): (r: seq<VirtualHostWrapper>)
    ensures r == [] <==> routes == []
    ensures forall i :: 0 <= i < |r| ==> r[i].routes == routes && r[i].virtualServiceHosts == sep.hosts
    ensures forall i, j :: 0 <= i < j < |r| ==> r[i].port != r[j].port
    ensures routes != [] && (forall s :: s in sep.services ==> EligiblePorts(s.ports, sniffing) == []) ==>
      r == [VirtualHostWrapper(FallbackPort, [], sep.hosts, routes)]
    ensures AllPorts(sep.services, sniffing) != [] ==>
      forall i :: 0 <= i < |r| ==> r[i].port in AllPorts(sep.services, sniffing)
  {
    var ports := Dedup(AllPorts(sep.services, sniffing));
    if routes == [] then []
    else if ports == [] then
      [VirtualHostWrapper(FallbackPort, [], sep.hosts, routes)]
    else
      assert ports[0] in AllPorts(sep.services, sniffing);
      WrappersFor(ports, sep.services, sep.hosts, routes, sniffing)
  }

  /** A virtual host lists exactly the services having an HTTP port with its
      number. */
  lemma VirtualHostListsServicesOnItsPort(sep: Separated, routes: seq<Route>, sniffing: bool, i: int, s: Service)
    requires 0 <= i < |VirtualHostsOf(sep, routes, sniffing)|
    ensures var w := VirtualHostsOf(sep, routes, sniffing)[i];
            s in w.services <==> s in sep.services && w.port in EligiblePorts(s.ports, sniffing)
  {
    var ports := Dedup(AllPorts(sep.services, sniffing));
    if ports == [] && s in sep.services && FallbackPort in EligiblePorts(s.ports, sniffing) {
      PortCovered(sep.services, sniffing, s, FallbackPort);
      assert false;
    }
  }

  /** Every HTTP port of every service of a VirtualService with routes gets
      a virtual host that lists the service. */
  lemma ServicePortHasVirtualHost(sep: Separated, routes: seq<Route>, sniffing: bool, s: Service, n: int)
    requires routes != [] && s in sep.services && n in EligiblePorts(s.ports, sniffing)
    ensures exists i ::
      && 0 <= i < |VirtualHostsOf(sep, routes, sniffing)|
      && VirtualHostsOf(sep, routes, sniffing)[i].port == n
      && s in VirtualHostsOf(sep, routes, sniffing)[i].services
  {
    var ports := Dedup(AllPorts(sep.services, sniffing));
    PortCovered(sep.services, sniffing, s, n);
    var i :| 0 <= i < |ports| && ports[i] == n;
    var r := VirtualHostsOf(sep, routes, sniffing);
    assert r[i] == VirtualHostWrapper(n, ServicesOnPort(sep.services, n, sniffing), sep.hosts, routes);
  }

  /** The routes a VirtualService yields on the listener, built for the mesh
      gateway. */
  function VirtualServiceRoutes(env: Env, vs: Config, registry: Registry, listenPort: int): seq<Route> {
    ExpandRules(RouteTranslator(env, vs, registry, listenPort, {MeshGateway}), vs.spec.http)
  }

  /** `buildSidecarVirtualHostsForVirtualService`: the virtual hosts of the
      VirtualService's registry services and routes on the listener port. */
  function BuildSidecarVirtualHostsForVirtualService(env: Env, vs: Config, registry: Registry,
                                                     order: seq<string>, listenPort: int): (r: seq<VirtualHostWrapper>)
  {
    VirtualHostsOf(SeparateVSHostsAndServices(vs.spec.hosts, registry, order),
                   VirtualServiceRoutes(env, vs, registry, listenPort), env.features.sniffingForOutbound)
  }

  // ---------------------------------------------------------------------
  // All virtual hosts of a listener

  /** The virtual hosts of the VirtualServices, in order. */
  function ConfigWrappers(env: Env, registry: Registry, order: seq<string>, vss: seq<Config>,
                          listenPort: int): (r: seq<VirtualHostWrapper>)
    ensures forall w :: w in r ==>
      exists i :: 0 <= i < |vss| && w in BuildSidecarVirtualHostsForVirtualService(env, vss[i], registry, order, listenPort)
    ensures forall i, w ::
      0 <= i < |vss| && w in BuildSidecarVirtualHostsForVirtualService(env, vss[i], registry, order, listenPort) ==> w in r
  {
    if |vss| == 0 then []
    else
      var first := BuildSidecarVirtualHostsForVirtualService(env, vss[0], registry, order, listenPort);
      var rest := ConfigWrappers(env, registry, order, vss[1..], listenPort);
      assert forall i :: 1 <= i < |vss| ==> vss[i] == vss[1..][i - 1];
      first + rest
  }

  /** The virtual hosts of consecutive VirtualServices are concatenated in
      VirtualService order: those of an earlier VirtualService come first. */
  lemma {:induction false} ConfigWrappersConcat(env: Env, registry: Registry, order: seq<string>,
                                                vss: seq<Config>, more: seq<Config>, listenPort: int)
    ensures ConfigWrappers(env, registry, order, vss + more, listenPort)
         == ConfigWrappers(env, registry, order, vss, listenPort) + ConfigWrappers(env, registry, order, more, listenPort)
  {
    if |vss| == 0 {
      assert vss + more == more;
    } else {
      Seqs.DropConcat(vss, more);
      ConfigWrappersConcat(env, registry, order, vss[1..], more, listenPort);
      var first := BuildSidecarVirtualHostsForVirtualService(env, vss[0], registry, order, listenPort);
      Seqs.ConcatAssoc(first, ConfigWrappers(env, registry, order, vss[1..], listenPort),
                       ConfigWrappers(env, registry, order, more, listenPort));
    }
  }

  /** Some virtual host lists a service with this host name. */
  predicate Covers(wrappers: seq<VirtualHostWrapper>, hostname: string) {
    exists w, s :: w in wrappers && s in w.services && s.hostname == hostname
  }

  /** The registry keys, in registry order, that no virtual host lists. */
  function Missing(order: seq<string>, registry: Registry, wrappers: seq<VirtualHostWrapper>): (r: seq<string>)
    ensures forall k :: k in r <==> k in order && k in registry && !Covers(wrappers, k)
  {
    if |order| == 0 then []
    else
      var k := order[0];
      assert forall k' :: k' in order <==> k' == k || k' in order[1..];
      (if k in registry && !Covers(wrappers, k) then [k] else []) + Missing(order[1..], registry, wrappers)
  }

  /** The default route of a service port without a VirtualService: the
      outbound default route to the port's cluster, with the destination
      rule's consistent hash when one applies. */
  function DefaultServiceRoute(env: Env, svc: Service, p: Port): (r: Route)
    ensures IsCatchAllRoute(r) && r.name == DefaultRouteName
    ensures r.operation == TraceOperation(svc.hostname, p.port)
    ensures r.action.Forward? && r.action.route.retryPolicy == Some(DefaultRetry)
    ensures SingleCluster(r) == BuildSubsetKey(Outbound, "", svc.hostname, p.port)
    ensures var hp := GetHashPolicyByService(env.push, svc, p);
            r.action.route.hashPolicy == (if hp.Some? then [hp.value] else [])
  {
    var base := BuildDefaultHTTPOutboundRoute(BuildSubsetKey(Outbound, "", svc.hostname, p.port),
                                              TraceOperation(svc.hostname, p.port));
    var hp := GetHashPolicyByService(env.push, svc, p);
    if hp.Some? then base.(action := Forward(base.action.route.(hashPolicy := [hp.value]))) else base
  }

  /** One default virtual host per HTTP port of the service. */
  function DefaultPortWrappers(env: Env, svc: Service, ports: seq<Port>): (r: seq<VirtualHostWrapper>)
    ensures forall p :: p in ports && IsHTTPEligible(p, env.features.sniffingForOutbound) ==>
      VirtualHostWrapper(p.port, [svc], [], [DefaultServiceRoute(env, svc, p)]) in r
    ensures forall w :: w in r ==>
      exists p :: p in ports && IsHTTPEligible(p, env.features.sniffingForOutbound)
        && w == VirtualHostWrapper(p.port, [svc], [], [DefaultServiceRoute(env, svc, p)])
  {
    if |ports| == 0 then []
    else
      var p := ports[0];
      assert forall q :: q in ports <==> q == p || q in ports[1..];
      (if IsHTTPEligible(p, env.features.sniffingForOutbound)
       then [VirtualHostWrapper(p.port, [svc], [], [DefaultServiceRoute(env, svc, p)])] else [])
      + DefaultPortWrappers(env, svc, ports[1..])
  }

  /** The default virtual hosts of the missing services. */
  function DefaultWrappers(env: Env, registry: Registry, missing: seq<string>): (r: seq<VirtualHostWrapper>)
    ensures forall w :: w in r <==>
      exists k :: k in missing && k in registry && w in DefaultPortWrappers(env, registry[k], registry[k].ports)
  {
    if |missing| == 0 then []
    else
      var k := missing[0];
      assert forall k' :: k' in missing <==> k' == k || k' in missing[1..];
      (if k in registry then DefaultPortWrappers(env, registry[k], registry[k].ports) else [])
      + DefaultWrappers(env, registry, missing[1..])
  }

  /** `BuildSidecarVirtualHostsFromConfigAndRegistry`: the VirtualServices'
      virtual hosts, then, in registry order, the default ones of every
      registry service none of them lists. */
  function BuildSidecarVirtualHostsFromConfigAndRegistry(env: Env, registry: Registry, order: seq<string>,
                                                         vss: seq<Config>, listenPort: int): (r: seq<VirtualHostWrapper>)
    ensures var fromConfig := ConfigWrappers(env, registry, order, vss, listenPort);
            && |fromConfig| <= |r| && r[..|fromConfig|] == fromConfig
            && (forall w :: w in r[|fromConfig|..] <==>
                  exists k :: k in order && k in registry && !Covers(fromConfig, k)
                    && w in DefaultPortWrappers(env, registry[k], registry[k].ports))
  {
    var fromConfig := ConfigWrappers(env, registry, order, vss, listenPort);
    var defaults := DefaultWrappers(env, registry, Missing(order, registry, fromConfig));
    var r := fromConfig + defaults;
    assert r[..|fromConfig|] == fromConfig;
    assert r[|fromConfig|..] == defaults;
    r
  }

  /** A service listed by one of a VirtualService's virtual hosts is one of
      its registry services. */
  lemma ListedServiceFromRegistry(env: Env, vs: Config, registry: Registry, order: seq<string>, listenPort: int,
                                  w': VirtualHostWrapper, s: Service)
    requires w' in BuildSidecarVirtualHostsForVirtualService(env, vs, registry, order, listenPort)
    requires s in w'.services
    ensures s in SeparateVSHostsAndServices(vs.spec.hosts, registry, order).services
    ensures exists k :: k in registry && registry[k] == s
  {
    var sep := SeparateVSHostsAndServices(vs.spec.hosts, registry, order);
    var routes := VirtualServiceRoutes(env, vs, registry, listenPort);
    var r := VirtualHostsOf(sep, routes, env.features.sniffingForOutbound);
    var j :| 0 <= j < |r| && r[j] == w';
    VirtualHostListsServicesOnItsPort(sep, routes, env.features.sniffingForOutbound, j, s);
  }

  /** A service listed by one of a VirtualService's virtual hosts is listed
      on each of its HTTP ports. */
  lemma ListedServiceOnEveryPort(env: Env, vs: Config, registry: Registry, order: seq<string>, listenPort: int,
                                 w': VirtualHostWrapper, s: Service, p: Port)
    requires w' in BuildSidecarVirtualHostsForVirtualService(env, vs, registry, order, listenPort)
    requires s in SeparateVSHostsAndServices(vs.spec.hosts, registry, order).services
    requires p in s.ports && IsHTTPEligible(p, env.features.sniffingForOutbound)
    ensures exists w :: w in BuildSidecarVirtualHostsForVirtualService(env, vs, registry, order, listenPort)
                        && w.port == p.port && s in w.services
  {
    var sep := SeparateVSHostsAndServices(vs.spec.hosts, registry, order);
    var routes := VirtualServiceRoutes(env, vs, registry, listenPort);
    var sniffing := env.features.sniffingForOutbound;
    var r := VirtualHostsOf(sep, routes, sniffing);
    assert p.port in EligiblePorts(s.ports, sniffing);
    ServicePortHasVirtualHost(sep, routes, sniffing, s, p.port);
    var i :| 0 <= i < |r| && r[i].port == p.port && s in r[i].services;
    assert r[i] in r;
  }

  /** A registry service some VirtualService lists is listed, on each of
      its HTTP ports, by the VirtualServices' virtual hosts. */
  lemma ListedServiceCovered(env: Env, registry: Registry, order: seq<string>, vss: seq<Config>,
                             listenPort: int, k: string, p: Port)
    requires WellKeyed(registry)
    requires k in registry && p in registry[k].ports && IsHTTPEligible(p, env.features.sniffingForOutbound)
    requires Covers(ConfigWrappers(env, registry, order, vss, listenPort), k)
    ensures exists w :: w in ConfigWrappers(env, registry, order, vss, listenPort)
                        && w.port == p.port && registry[k] in w.services
  {
    var fromConfig := ConfigWrappers(env, registry, order, vss, listenPort);
    var w', s :| w' in fromConfig && s in w'.services && s.hostname == k;
    var i :| 0 <= i < |vss| && w' in BuildSidecarVirtualHostsForVirtualService(env, vss[i], registry, order, listenPort);
    ListedServiceFromRegistry(env, vss[i], registry, order, listenPort, w', s);
    var k' :| k' in registry && registry[k'] == s;
    assert s == registry[k];
    ListedServiceOnEveryPort(env, vss[i], registry, order, listenPort, w', s, p);
    var w :| w in BuildSidecarVirtualHostsForVirtualService(env, vss[i], registry, order, listenPort)
             && w.port == p.port && s in w.services;
    assert w in fromConfig;
  }

  /** A registry service no VirtualService lists gets, on each of its HTTP
      ports, a default virtual host with the default route. */
  lemma UnlistedServiceGetsDefault(env: Env, registry: Registry, order: seq<string>, vss: seq<Config>,
                                   listenPort: int, k: string, p: Port)
    requires Enumerates(order, registry)
    requires k in registry && p in registry[k].ports && IsHTTPEligible(p, env.features.sniffingForOutbound)
    requires !Covers(ConfigWrappers(env, registry, order, vss, listenPort), k)
    ensures VirtualHostWrapper(p.port, [registry[k]], [], [DefaultServiceRoute(env, registry[k], p)])
            in BuildSidecarVirtualHostsFromConfigAndRegistry(env, registry, order, vss, listenPort)
  {
    var svc := registry[k];
    var fromConfig := ConfigWrappers(env, registry, order, vss, listenPort);
    var r := BuildSidecarVirtualHostsFromConfigAndRegistry(env, registry, order, vss, listenPort);
    var w := VirtualHostWrapper(p.port, [svc], [], [DefaultServiceRoute(env, svc, p)]);
    assert k in order;
    assert w in DefaultPortWrappers(env, registry[k], registry[k].ports);
    assert w in r[|fromConfig|..];
    Seqs.InSuffix(r, |fromConfig|, w);
  }

  /** Every HTTP port of every registry service gets a virtual host that
      lists the service: either through a VirtualService naming it, or as a
      default virtual host. */
  lemma EveryServicePortHasVirtualHost(env: Env, registry: Registry, order: seq<string>, vss: seq<Config>,
                                       listenPort: int, k: string, p: Port)
    requires Enumerates(order, registry) && WellKeyed(registry)
    requires k in registry && p in registry[k].ports && IsHTTPEligible(p, env.features.sniffingForOutbound)
    ensures exists w :: w in BuildSidecarVirtualHostsFromConfigAndRegistry(env, registry, order, vss, listenPort)
                        && w.port == p.port && registry[k] in w.services
  {
    var svc := registry[k];
    var fromConfig := ConfigWrappers(env, registry, order, vss, listenPort);
    var r := BuildSidecarVirtualHostsFromConfigAndRegistry(env, registry, order, vss, listenPort);
    if Covers(fromConfig, k) {
      ListedServiceCovered(env, registry, order, vss, listenPort, k, p);
      var w :| w in fromConfig && w.port == p.port && svc in w.services;
      Seqs.InPrefix(r, |fromConfig|, w);
    } else {
      UnlistedServiceGetsDefault(env, registry, order, vss, listenPort, k, p);
      var w := VirtualHostWrapper(p.port, [svc], [], [DefaultServiceRoute(env, svc, p)]);
      assert svc in w.services;
    }
  }

  /** A default virtual host stands for its service alone and carries one
      catch-all route and no VirtualService host. */
  lemma DefaultWrapperShape(env: Env, svc: Service, ports: seq<Port>, w: VirtualHostWrapper)
    requires w in DefaultPortWrappers(env, svc, ports)
    ensures w.services == [svc] && w.virtualServiceHosts == [] && |w.routes| == 1 && IsCatchAllRoute(w.routes[0])
  {
    var p :| p in ports && IsHTTPEligible(p, env.features.sniffingForOutbound)
             && w == VirtualHostWrapper(p.port, [svc], [], [DefaultServiceRoute(env, svc, p)]);
  }

  /** Default virtual hosts go only to services no VirtualService lists:
      each stands for one such service and carries one catch-all route and
      no VirtualService host. */
  lemma DefaultsOnlyForUnlisted(env: Env, registry: Registry, order: seq<string>, vss: seq<Config>,
                                listenPort: int, w: VirtualHostWrapper)
    requires WellKeyed(registry)
    requires var r := BuildSidecarVirtualHostsFromConfigAndRegistry(env, registry, order, vss, listenPort);
             w in r[|ConfigWrappers(env, registry, order, vss, listenPort)|..]
    ensures |w.services| == 1 && w.services[0].hostname in registry && registry[w.services[0].hostname] == w.services[0]
    ensures !Covers(ConfigWrappers(env, registry, order, vss, listenPort), w.services[0].hostname)
    ensures w.virtualServiceHosts == [] && |w.routes| == 1 && IsCatchAllRoute(w.routes[0])
  {
    var fromConfig := ConfigWrappers(env, registry, order, vss, listenPort);
    var k :| k in order && k in registry && !Covers(fromConfig, k)
             && w in DefaultPortWrappers(env, registry[k], registry[k].ports);
    DefaultWrapperShape(env, registry[k], registry[k].ports, w);
  }
}

=== FILE: wrappers.dfy ===
/** Optional values and results, standing in for Go's nil references and
    `(value, error)` returns. */
module Wrappers {

  /** A Go reference that may be nil: `None` is nil. */
  datatype Option<+T> = None | Some(value: T) {

    /** The wrapped value, or `default` when there is none. */
    function GetOr(default: T): T {
      match this
      case Some(v) => v
      case None => default
    }
  }

  /** A Go `(value, error)` pair where exactly one side is meaningful. */
  datatype Result<+R, +E> = Success(value: R) | Failure(error: E)
}
